=== FILE: README.md ===
# AEPL serial logger: a Dafny model of its core

`CIAP/main.py` is a tkinter serial-port logger. A watcher thread polls the list of
serial ports every two seconds. When the number of ports grows, it opens the last
port in the enumeration and then starts logging. A reader thread takes lines from the port and cleans each one:

1. it decodes the line as UTF-8, or replaces it with `<Decoding Error>`;
2. it strips trailing whitespace;
3. it removes ANSI/ECMA-48 control sequences.

The reader then stamps the line with the local time. It shows the entry in the
console and appends it to `serial_log_<time>.log` while logging is active. Menu
commands start and stop logging, disconnect the port, add comments to the log and
quit.

This project models that core with pure functions over immutable values. It then
proves what the code promises about it.

| file | module | what it models |
|---|---|---|
| `wrappers.dfy` | `Wrappers` | `Option` |
| `escapes.dfy` | `Escapes` | the escape-sequence regex `\x1B[@-_][0-?]*[ -/]*[@-~]` and `re.sub` with it |
| `whitespace.dfy` | `Whitespace` | `str.rstrip()` with Python's whitespace set |
| `utf8.dfy` | `Utf8` | strict UTF-8 decoding (RFC 3629), with an encoder; both round trips are proved |
| `clock.dfy` | `Clock` | the two `strftime` formats, with parsers that read both back |
| `pipeline.dfy` | `Pipeline` | one line: decode, rstrip, strip escapes, then `"<ts> - <line>"` |
| `sessions.dfy` | `Sessions` | port, log file and `logging_active`, with the five menu transitions |
| `reader.dfy` | `Reader` | the `read_serial` loop over a sequence of read events |
| `watcher.dfy` | `Watcher` | one pass of `check_ports`, as written and as evidently intended |
| `logger.dfy` | `Logger` | the whole program as an arbitrary sequence of menu, timer and serial events |
| `examples.dfy` | `Examples` | typical lines and a fixed clock reading worked through the model |

Everything outside the program becomes a parameter:

- a read event carries the raw bytes `readline()` returned and the clock reading;
- a `Fault` read event stands for a `SerialException` or any other exception;
- a watcher pass carries the result of `comports()`, which is None when it raises;
- it also says whether `serial.Serial(...)` opens the port, and gives the clock reading;
- the comment dialog's answer is an `Option<string>`.

The session records what the user sees:

- the console text;
- the window title;
- the error dialogs;
- whether a reader thread is running;
- whether the main loop runs;
- the contents of every log file.

A file object that has been closed is kept, because `exit_all` leaves
`self.log_file` pointing at a closed file. Writing to it is an error, which the
model represents as None.

The main invariant (`Sessions.Inv`) has five parts:

- a log file is held exactly while logging is active;
- the held file exists;
- logging never runs without a port;
- a reader runs only while the port is open;
- an open port is always being logged.

Every menu command, every watcher pass and every reader step preserves it. So
does every interleaving of them (`Logger.ReachableInv`). The invariant does not
say that an open port has a reader: `Logger.LostReaderReachable` shows a
reachable state with an open port, active logging and no reader.

### Behaviour of main.py worth knowing

- A log entry is the timestamp, `" - "` and the cleaned line (line 196).
- Lines are shown as plain text. `insert_ansi_text` (lines 219-227) is never
  called, so nothing is coloured and no line is classified.
- The escape pattern is `ESC`, one byte `@`–`_`, then parameter bytes `0`–`?`,
  then intermediate bytes space–`/`, then a final byte `@`–`~`. That is the shape
  of section 5.4 of ECMA-48, with the introducer of section 5.3.
- `rstrip()` runs before the escape removal (lines 190-191). A line such as
  `"ab \x1b[0m"` therefore keeps its trailing space (`Examples.ColouredLineLogged`).
- The substitution is one left-to-right pass. It is not idempotent
  (`Examples.OnePassOnly`).
- `stop_logging` closes the serial port (line 172). So "Start" right after "Stop"
  opens no new log file. It only raises the "No serial port" dialog
  (`Sessions.StartAfterStopRefused`). A new file needs the watcher to see a new port.
- Log file names have one-second resolution, and the file is opened in append mode.
  Two starts within the same second share a file (`Clock.LogFileNameInjective`
  states exactly when names differ).
- Every exception in `check_ports` ends the watcher loop (lines 148-150), a failed
  `comports()` call as much as a failure to open the new port.
- "Disconnect" (lines 513-517) closes the port. When the reader is between
  iterations it then ends without touching `logging_active`, which stays set. If
  the next watcher pass finds one more port, it opens the
  port, and `start_logging` keeps the log file but starts no reader, because
  logging is still active (line 162). From then on the open port is never read
  (`Logger.ReaderLostAfterDisconnect`, `Logger.LostReaderReachable`).

## Model

| member | source | states |
|---|---|---|
| Escapes.MatchLength | CIAP/main.py:181 | a nonzero match length covers a prefix that is ESC, an introducer byte, parameter bytes, intermediate bytes and a final byte, and lies within the input |
| Escapes.MatchLengthUnique | CIAP/main.py:181 | a prefix is a control sequence exactly when it is the one the scanner finds: the pattern has at most one match at each position |
| Escapes.ParamEnd | CIAP/main.py:181 | the `[0-?]*` run is maximal: every byte in it is a parameter byte and the next one is not |
| Escapes.InterEnd | CIAP/main.py:181 | the `[ -/]*` run is maximal: every byte in it is an intermediate byte and the next one is not |
| Escapes.Strip | CIAP/main.py:191 | substitution never lengthens the line |
| Escapes.StripIsSubsequence | CIAP/main.py:191 | the result keeps characters of the input in order and adds none |
| Escapes.StripWithoutEsc | CIAP/main.py:191 | a line without ESC is left unchanged |
| Escapes.StripPlainPrefix | CIAP/main.py:191 | text before the first ESC passes through untouched |
| Escapes.StripSequencePrefix | CIAP/main.py:191 | a leading control sequence is deleted entirely |
| Escapes.StripFrontSequence | CIAP/main.py:191 | a match at the scan position is skipped as a whole |
| Escapes.StripFrontKept | CIAP/main.py:191 | when no control sequence starts at the scan position, that character is kept and scanning resumes one further on |
| Escapes.SgrIsControlSequence | CIAP/main.py:181 | every `ESC [ <parameters> m` colour code matches the pattern |
| Escapes.StripPlainHead | CIAP/main.py:191 | a character other than ESC is copied and the scan resumes right after it |
| Escapes.StripRender | CIAP/main.py:191 | a line built from text runs without ESC and control sequences strips to exactly its text runs |
| Whitespace.RStrip | CIAP/main.py:190 | the result is a prefix of the input that does not end in whitespace, and only whitespace was removed |
| Whitespace.RightStrippedUnique | CIAP/main.py:190 | only one string has those properties, so they define `rstrip()` |
| Whitespace.RStripTrailing | CIAP/main.py:190 | text followed by any whitespace tail strips back to the text |
| Utf8.DecodeChar | CIAP/main.py:190 | one decoded character consumes between one byte and the rest of the input |
| Utf8.Decode | CIAP/main.py:190 | a decoded line has at most as many characters as bytes and is empty only for no bytes; it decodes exactly the UTF-8 encodings (see DecodeEncode and EncodeDecode) |
| Utf8.DecodeEncode | CIAP/main.py:190 | every string decodes back from its UTF-8 encoding |
| Utf8.EncodeDecode | CIAP/main.py:190 | bytes that decode are exactly the encoding of the text they decode to, so decoding accepts only well-formed UTF-8 |
| Utf8.DecodeAfterEncoded | CIAP/main.py:190 | decoding proceeds character by character: after well-formed text, decoding goes on with what follows |
| Utf8.DecodeFailsAfterEncoded | CIAP/main.py:190 | an ill-formed sequence after well-formed text makes the whole line undecodable |
| Utf8.EncodeChar | CIAP/main.py:190 | a character takes one to four bytes, and one byte exactly when it is ASCII |
| Clock.Stamp | CIAP/main.py:195 | the line timestamp is 19 characters |
| Clock.ParseStampRoundTrip | CIAP/main.py:195 | the clock reading is recovered from its timestamp, so the timestamp loses nothing |
| Clock.LogFileName | CIAP/main.py:160 | the name is `serial_log_` and 15 stamp characters and `.log` |
| Clock.ParseLogFileName | CIAP/main.py:160 | a name that parses gives a valid clock reading |
| Clock.ParseLogFileNameRoundTrip | CIAP/main.py:160 | the clock reading is recovered from the log file name |
| Clock.LogFileNameInjective | CIAP/main.py:160 | two starts get the same file name exactly when their clock readings agree to the second |
| Clock.Pad | CIAP/main.py:195 | a zero-padded field has exactly its width and only digits |
| Clock.PadValue | CIAP/main.py:195 | a padded field reads back as the number it prints |
| Clock.ParseStamp | CIAP/main.py:195 | a parsed timestamp is a valid clock reading |
| Pipeline.CleanLine | CIAP/main.py:189-193 | undecodable bytes give the sentinel; otherwise the line is a subsequence of the decoded text |
| Pipeline.CleanLineWithoutEsc | CIAP/main.py:189-191 | for text without escapes, cleaning is exactly `rstrip()` |
| Pipeline.CleanLineOfRenderedLine | CIAP/main.py:189-193 | a coloured line that does not end in whitespace, followed by any line ending, cleans to its plain text |
| Pipeline.Entry | CIAP/main.py:195-196 | an entry is 22 characters longer than the cleaned line |
| Pipeline.SplitEntry | CIAP/main.py:195-196 | an entry that splits has a valid timestamp of 19 characters, then `" - "`, then the line; entries always split back (see SplitEntryRoundTrip) |
| Pipeline.SplitEntryRoundTrip | CIAP/main.py:195-196 | an entry splits back into its clock reading and the cleaned line |
| Sessions.ClosePort | CIAP/main.py:172-173 | afterwards the port is not open; whether a port exists, and which device, are unchanged |
| Sessions.Append | CIAP/main.py:160 | append mode adds the text to the end of that one file and leaves other files alone |
| Sessions.WriteLog | CIAP/main.py:203-204 | writing fails exactly when the held file is closed; otherwise it appends to the held file, or does nothing without one |
| Sessions.StartLogging | CIAP/main.py:153-167 | without an open port only an error dialog; otherwise logging is active, an existing file is kept or a new time-named one is opened in append mode with its earlier contents untouched, and a reader starts only if logging was off |
| Sessions.StartLoggingIdempotent | CIAP/main.py:158-163 | a second start changes nothing |
| Sessions.StartLoggingWithoutPort | CIAP/main.py:154-156 | each start without an open port adds exactly one error dialog |
| Sessions.StopLogging | CIAP/main.py:169-178 | nothing happens unless logging is active; then logging ends, the same port object is closed so the reader ends, the file is released and the console notes it; title, dialogs and main loop are untouched |
| Sessions.StopLoggingIdempotent | CIAP/main.py:169-178 | a second stop changes nothing |
| Sessions.StartAfterStopRefused | CIAP/main.py:154-173 | start right after stop is refused with the port error, because stop closed the port |
| Sessions.Disconnect | CIAP/main.py:513-517 | the same port object is closed, so the reader ends, and the title says disconnected, but logging, the log file, the dialogs and the main loop stay as they were |
| Sessions.ExitAll | CIAP/main.py:519-524 | the same port object is closed so the reader ends, the main loop stops, and the log file is closed but still referenced; title, dialogs, console and files are untouched |
| Sessions.CommentToLog | CIAP/main.py:441-446 | an empty or cancelled comment changes nothing; otherwise `# comment` goes to the console, and to the log file when one is open, and nothing else changes |
| Sessions.Initial | CIAP/main.py:22-24 | the program starts with no port, no log file, logging off, no reader and the main loop running, which satisfies the invariant |
| Sessions.Inv | CIAP/main.py:153-178 | the invariant: a log file is held exactly while logging is active, the held file exists, logging never runs without a port, a reader runs only on an open port, and an open port is being logged; kept by every transition (see the lemmas below) |
| Sessions.Apply | CIAP/main.py:45-79 | only "Exit All" stops the main loop, and it leaves the port closed |
| Sessions.InitialInv | CIAP/main.py:22-24 | the start-up state satisfies the invariant |
| Sessions.ApplyPreservesInv | CIAP/main.py:153-178 | every menu command keeps the invariant |
| Reader.Step | CIAP/main.py:185-216 | the loop goes on exactly when a line arrived and no closed file is held; the entry reaches the console even when the file write then fails; an iteration that ends the loop ends the reader and leaves logging inactive and, if logging was active, the port closed; it writes no file and leaves the title, dialogs and main loop untouched |
| Reader.ReadSerial | CIAP/main.py:183-216 | the reader only appends to the console, never touches the title, the dialogs or the main loop, and has ended whenever the port is closed |
| Reader.ReadLoop | CIAP/main.py:183-216 | the loop computes the same session as the event-by-event definition |
| Reader.StepReceived | CIAP/main.py:195-204 | a received line adds its entry to the console and to the held log file |
| Reader.ReadSerialTranscript | CIAP/main.py:183-204 | while the port stays open, console and log file grow by exactly the entries of the lines read, in order |
| Reader.ReadSerialClosedPort | CIAP/main.py:183 | with no open port the reader returns at once and changes nothing else |
| Reader.ReadSerialFault | CIAP/main.py:208-216 | an exception stops logging and ends the reader; later events change nothing |
| Reader.ReadSerialPreservesInv | CIAP/main.py:180-216 | the reader keeps the invariant |
| Reader.AppendTwice | CIAP/main.py:203-204 | two appends are one append of the joined text |
| Watcher.Tick | CIAP/main.py:128-150 | a grown count opens the last port, sets the connected title and runs `start_logging`, and a failed open ends the loop; a shrunk count sets the disconnected title and runs `stop_logging`; with an unchanged count the loop survives exactly when a port object exists, a closed port gets the disconnected title and `stop_logging`, and an open port changes nothing; any failure ends the loop for good |
| Watcher.Run | CIAP/main.py:129-150 | the loop keeps the invariant, and once it has ended no later pass revives it |
| Watcher.ReconnectWhileLogging | CIAP/main.py:136-139 | a port appearing during logging keeps the log file and starts no reader, whether or not one still runs |
| Watcher.RunAfterHalt | CIAP/main.py:148-150 | once the loop has ended, later passes change nothing |
| Watcher.NoPortAtStartupNeverConnects | CIAP/main.py:128-150 | with no port at start-up the first pass ends the loop, and nothing plugged in later is ever connected |
| Watcher.FixedTick | CIAP/main.py:142 | with the short-circuit fixed, a successful scan never ends the loop unless opening the new port fails |
| Watcher.FixedTickAgrees | CIAP/main.py:142 | the fix differs from the code only in the case where the code raises |
| Watcher.FixedConnectsLatePort | CIAP/main.py:136-139 | with the fix, a port plugged in after an empty start-up is connected and logged to a file named after the connection time |
| Watcher.TickPreservesInv | CIAP/main.py:128-150 | every pass keeps the invariant |
| Watcher.FixedTickPreservesInv | CIAP/main.py:128-150 | every pass of the fixed watcher keeps the invariant |
| Logger.Step | CIAP/main.py:128-216 | only a watcher pass changes the watcher; a serial event without a running reader changes nothing; an ended watcher stays ended |
| Logger.Run | CIAP/main.py:128-216 | an ended watcher loop stays ended, and once the main loop has stopped it never runs again |
| Logger.StepPreservesInv | CIAP/main.py:128-216 | any single menu, timer or serial event keeps the invariant |
| Logger.RunPreservesInv | CIAP/main.py:128-216 | any sequence of events keeps the invariant |
| Logger.ReachableInv | CIAP/main.py:22-24 | every state reachable from start-up satisfies the invariant |
| Logger.NothingReadWithoutReader | CIAP/main.py:162-167 | without a running reader thread, nothing the port delivers reaches the console or the file |
| Logger.ReaderLostAfterDisconnect | CIAP/main.py:153-167 | after a menu disconnect and a pass that finds a new port, the port is open and logging active with the same file but no reader, and later lines are never read |
| Logger.LostReaderReachable | CIAP/main.py:513-517 | connect, disconnect, then a second device: the state with an open port and no reader is reachable from start-up |
| Examples.ColourCodes | CIAP/main.py:181 | the red colour code and the reset both match the pattern |
| Examples.ColouredLine | CIAP/main.py:191 | text wrapped in a red colour code and a reset loses exactly the two codes |
| Examples.ColouredLineLogged | CIAP/main.py:189-193 | a red line with any line ending is logged as its text, and whitespace before the reset survives because rstrip runs first |
| Examples.OnePassOnly | CIAP/main.py:191 | a sequence formed by a deletion survives the one pass, and a second pass would delete it, so stripping is not idempotent |
| Examples.LoneEscKept | CIAP/main.py:181 | an ESC whose next character cannot introduce a sequence is kept with what follows |
| Examples.TruncatedSequenceKept | CIAP/main.py:181 | a sequence cut off before its final byte is kept |
| Examples.TruncatedCharacter | CIAP/main.py:189-193 | a two-byte lead without its continuation, after any text, gives the sentinel for the whole line |
| Examples.EncodedSurrogate | CIAP/main.py:189-193 | an encoded UTF-16 surrogate, after any text, gives the sentinel for the whole line |
| Examples.StampFormat | CIAP/main.py:195 | the line timestamp at one concrete reading |
| Examples.LogFileNameFormat | CIAP/main.py:160 | the log file name at the same reading |
| Examples.EntryAtExampleTime | CIAP/main.py:195-196 | any line read at that reading is logged behind its timestamp and `" - "` |

## Left out

- The tkinter interface is not modelled: windows, menus, key bindings, scrolling,
  the icon and the clipboard. Only the title text, console text and error dialogs
  are kept as data.
- "Clear Screen" (lines 540-541) empties the console and "Paste" (lines 532-538)
  inserts clipboard text at the cursor. Neither is modelled, so the modelled
  console holds everything the program appended, as if neither were used.
- Threads, `time.sleep` and `in_waiting` polling are not modelled. Each menu
  command, watcher pass and reader iteration is one indivisible step, in any order
  (`Logger.Run`). Races inside a step are not represented.
- A reader reads `self.serial_port` afresh on every iteration, so after the watcher
  replaces the port object it reads from the new one, as the model does. A
  `readline()` already in progress on the old object is not represented.
- A reader notices a closed port in one of two ways. Between iterations, its next
  loop check (within 0.1 s) ends it and logging stays on. Inside an iteration
  (after the check, in `in_waiting`, or during a `readline()` that may block for up
  to the 1 s timeout of line 137), the pyserial call on the closed port raises, and
  the handler at lines 213-216 calls `stop_logging`, so logging goes off and the
  file is released. The model ends the reader in the same step that closes the
  port, with logging left on: the first outcome. The second outcome is not
  represented as a reader step; the model reaches the same logging-off state only
  at the next watcher pass, which sees the closed port (lines 142-144). A watcher
  pass that reopens a port within that window, keeping the old reader alive, is
  not represented either.
- pyserial is not modelled. Baud rate, timeout and `readline()`'s own line
  splitting are outside the model: a read event is the bytes one `readline()` returned.
- The replaced port object is not closed when a new port appears. The model does
  not keep the leaked handle.
- File-system failures (open or write errors, a full disk) and buffering or
  `flush` are not modelled. A file's contents are exactly what was written to it.
- `print` diagnostics in the exception handlers are not modelled.
- Not modelled, because they are outside the logging core:
  - `insert_ansi_text`, which nothing calls;
  - `browse_file`, `create_new_file` and `save_log`, which no menu item or key
    binding (lines 41-118) reaches. `browse_file` would hold a log file while
    logging is off; because nothing calls it, the invariant holds of the whole
    program (`Logger.ReachableInv`);
  - `new_connection`, `duplicate_session`, `view_log` and `show_log_dialog`, which
    open dialogs and windows but touch neither the port, the log file nor
    `logging_active`;
  - the placeholder dialogs;
  - the plain "Exit" item (`root.quit`).
- Clock.Valid: restricts the year to 1000–9999. Outside that range `%Y` is
  platform-dependent and no longer four digits.
- Clock.Stamp: states the timestamp format only for years 1000–9999, for the
  reason above.
- Logger.Step: uses the watcher pass as written, so the whole-program invariant
  is about the program as it is. The fixed pass is proved to keep the same
  invariant (`Watcher.FixedTickPreservesInv`).

## Findings

| source | as written | input that shows it | evidently intended | confidence | as-written member | corrected member |
|---|---|---|---|---|---|---|
| CIAP/main.py:142 | when the port count is unchanged, the disconnect test reads `is_open` on the port attribute even while it is still `None`, because no port has been opened yet; the AttributeError is caught at lines 148-150 and ends the watcher loop | start the program with no serial device attached: the first `comports()` returns `[]`, equal in length to the initial `previous_ports` | check `is_open` only when a port object exists, so the watcher keeps polling and connects a device plugged in later | high, not executed | Watcher.NoPortAtStartupNeverConnects | Watcher.FixedConnectsLatePort |

=== FILE: clock.dfy ===
/**
 * The two clock renderings the program uses: `time.strftime('%Y-%m-%d %H:%M:%S')`
 * in front of every logged line (CIAP/main.py:195) and `%Y%m%d_%H%M%S` in the
 * name of each log file (CIAP/main.py:160). The clock reading itself is a
 * parameter: a broken-down local time as `time.localtime` produces it.
 */
module Clock {
  import opened Wrappers

  datatype DateTime = DateTime(year: int, month: int, day: int, hour: int, minute: int, second: int)

  /** Field ranges of a struct_time (seconds go to 61), with a four-digit year. */
  predicate Valid(t: DateTime) {
    && 1000 <= t.year <= 9999
    && 1 <= t.month <= 12
    && 1 <= t.day <= 31
    && 0 <= t.hour <= 23
    && 0 <= t.minute <= 59
    && 0 <= t.second <= 61
  }

  function Pow10(w: nat): (p: nat)
    ensures p >= 1
  {
    if w == 0 then 1 else 10 * Pow10(w - 1)
  }

  predicate IsDigit(c: char) { '0' <= c <= '9' }

  predicate AllDigits(s: string) { forall i | 0 <= i < |s| :: IsDigit(s[i]) }

  /** The number a run of decimal digits denotes. */
  function Value(s: string): nat
    requires AllDigits(s)
  {
    if |s| == 0 then 0 else 10 * Value(s[..|s| - 1]) + (s[|s| - 1] as int - '0' as int)
  }

  /** `n` in decimal, zero-padded to `w` digits, as strftime's %m, %d, %H, %M, %S and %Y print it. */
  function Pad(n: nat, w: nat): (r: string)
    requires n < Pow10(w)
    ensures |r| == w && AllDigits(r)
  {
    if w == 0 then []
    else
      var r := Pad(n / 10, w - 1) + [('0' as int + n % 10) as char];
      assert forall i | 0 <= i < w - 1 :: r[i] == Pad(n / 10, w - 1)[i];
      r
  }

  /** Reading a padded number back gives the number. */
  lemma {:induction false} PadValue(n: nat, w: nat)
    requires n < Pow10(w)
    ensures Value(Pad(n, w)) == n
  {
    if w > 0 {
      var r := Pad(n, w);
      assert r[..w - 1] == Pad(n / 10, w - 1);
      PadValue(n / 10, w - 1);
    }
  }

  /** `%Y-%m-%d %H:%M:%S`: the timestamp in front of each logged line. */
  function Stamp(t: DateTime): (r: string)
    requires Valid(t)
    ensures |r| == 19
  {
    Pad(t.year, 4) + "-" + Pad(t.month, 2) + "-" + Pad(t.day, 2) + " "
      + Pad(t.hour, 2) + ":" + Pad(t.minute, 2) + ":" + Pad(t.second, 2)
  }

  /** `%Y%m%d_%H%M%S`: the timestamp inside a log file's name. */
  function FileStamp(t: DateTime): (r: string)
    requires Valid(t)
    ensures |r| == 15
  {
    Pad(t.year, 4) + Pad(t.month, 2) + Pad(t.day, 2) + "_"
      + Pad(t.hour, 2) + Pad(t.minute, 2) + Pad(t.second, 2)
  }

  /** `serial_log_<%Y%m%d_%H%M%S>.log`, the file `start_logging` opens. */
  function LogFileName(t: DateTime): (r: string)
    requires Valid(t)
    ensures |r| == 30
    ensures r[..11] == "serial_log_" && r[26..] == ".log"
  {
    "serial_log_" + FileStamp(t) + ".log"
  }

  /** The number in `s[i..j]`, when those characters are all digits. */
  function Field(s: string, i: nat, j: nat): Option<nat>
    requires i <= j <= |s|
  {
    if AllDigits(s[i..j]) then Some(Value(s[i..j])) else None
  }

  /** Reads a `%Y-%m-%d %H:%M:%S` timestamp; None when `s` is not one. */
  function ParseStamp(s: string): (r: Option<DateTime>)
    ensures r.Some? ==> Valid(r.value)
  {
    if |s| != 19 || s[4] != '-' || s[7] != '-' || s[10] != ' ' || s[13] != ':' || s[16] != ':' then None
    else
      match (Field(s, 0, 4), Field(s, 5, 7), Field(s, 8, 10), Field(s, 11, 13), Field(s, 14, 16), Field(s, 17, 19))
      case (Some(y), Some(mo), Some(d), Some(h), Some(mi), Some(sec)) =>
        var t := DateTime(y, mo, d, h, mi, sec);
        if Valid(t) then Some(t) else None
      case _ => None
  }

  /** Every valid clock reading is recovered from its timestamp. */
  lemma ParseStampRoundTrip(t: DateTime)
    requires Valid(t)
    ensures ParseStamp(Stamp(t)) == Some(t)
  {
    var s := Stamp(t);
    assert s[0..4] == Pad(t.year, 4);
    assert s[5..7] == Pad(t.month, 2);
    assert s[8..10] == Pad(t.day, 2);
    assert s[11..13] == Pad(t.hour, 2);
    assert s[14..16] == Pad(t.minute, 2);
    assert s[17..19] == Pad(t.second, 2);
    PadValue(t.year, 4);
    PadValue(t.month, 2);
    PadValue(t.day, 2);
    PadValue(t.hour, 2);
    PadValue(t.minute, 2);
    PadValue(t.second, 2);
  }

  /** Reads a log file name back into its clock reading; None when `s` is not such a name. */
  function ParseLogFileName(s: string): (r: Option<DateTime>)
    ensures r.Some? ==> Valid(r.value)
  {
    if |s| != 30 || s[..11] != "serial_log_" || s[19] != '_' || s[26..] != ".log" then None
    else
      match (Field(s, 11, 15), Field(s, 15, 17), Field(s, 17, 19), Field(s, 20, 22), Field(s, 22, 24), Field(s, 24, 26))
      case (Some(y), Some(mo), Some(d), Some(h), Some(mi), Some(sec)) =>
        var t := DateTime(y, mo, d, h, mi, sec);
        if Valid(t) then Some(t) else None
      case _ => None
  }

  /** Where each field of the clock reading sits in the file stamp. */
  lemma FileStampFields(t: DateTime)
    requires Valid(t)
    ensures var f := FileStamp(t);
      && f[8] == '_'
      && f[0..4] == Pad(t.year, 4) && f[4..6] == Pad(t.month, 2) && f[6..8] == Pad(t.day, 2)
      && f[9..11] == Pad(t.hour, 2) && f[11..13] == Pad(t.minute, 2) && f[13..15] == Pad(t.second, 2)
  {
    var f := FileStamp(t);
    var date := Pad(t.year, 4) + Pad(t.month, 2) + Pad(t.day, 2);
    var time := Pad(t.hour, 2) + Pad(t.minute, 2) + Pad(t.second, 2);
    assert f == date + "_" + time;
    assert f[0..8] == date && f[9..15] == time;
  }

  /** ... and in the log file name, which holds the stamp at offset 11. */
  lemma LogFileNameFields(t: DateTime)
    requires Valid(t)
    ensures var s := LogFileName(t);
      && s[19] == '_'
      && s[11..15] == Pad(t.year, 4) && s[15..17] == Pad(t.month, 2) && s[17..19] == Pad(t.day, 2)
      && s[20..22] == Pad(t.hour, 2) && s[22..24] == Pad(t.minute, 2) && s[24..26] == Pad(t.second, 2)
  {
    var s, f := LogFileName(t), FileStamp(t);
    FileStampFields(t);
    assert s[11..26] == f;
    assert s[19] == f[8];
    assert s[11..15] == f[0..4];
    assert s[15..17] == f[4..6];
    assert s[17..19] == f[6..8];
    assert s[20..22] == f[9..11];
    assert s[22..24] == f[11..13];
    assert s[24..26] == f[13..15];
  }

  /** Every valid clock reading is recovered from the log file name it gives. */
  lemma ParseLogFileNameRoundTrip(t: DateTime)
    requires Valid(t)
    ensures ParseLogFileName(LogFileName(t)) == Some(t)
  {
    LogFileNameFields(t);
    PadValue(t.year, 4);
    PadValue(t.month, 2);
    PadValue(t.day, 2);
    PadValue(t.hour, 2);
    PadValue(t.minute, 2);
    PadValue(t.second, 2);
  }

  /** Distinct start times (to the second) give distinct log file names. */
  lemma LogFileNameInjective(a: DateTime, b: DateTime)
    requires Valid(a) && Valid(b)
    ensures LogFileName(a) == LogFileName(b) <==> a == b
  {
    ParseLogFileNameRoundTrip(a);
    ParseLogFileNameRoundTrip(b);
  }
}

=== FILE: escapes.dfy ===
/**
 * Removal of terminal escape sequences from a decoded line (CIAP/main.py:181, 191).
 *
 * The program compiles the pattern ESC [@-_] [0-?]* [ -/]* [@-~] and deletes every
 * match, scanning left to right without rescanning what a deletion exposes. The
 * pattern is the control-sequence shape of section 5.4 of ECMA-48 (parameter bytes,
 * then intermediate bytes, then one final byte), opened by any two-character
 * introducer ESC Fe of section 5.3. Parameter, intermediate and final bytes lie in
 * disjoint ranges, so at a given position the pattern matches at most one prefix
 * and the greedy scan below is exactly what the regular-expression engine does.
 */
module Escapes {

  const ESC: char := '\U{1B}'

  /** Second character of an ESC Fe introducer: 0x40-0x5F. */
  predicate IsFe(c: char) { '@' <= c <= '_' }

  /** Parameter byte: 0x30-0x3F. */
  predicate IsParam(c: char) { '0' <= c <= '?' }

  /** Intermediate byte: 0x20-0x2F. */
  predicate IsInter(c: char) { ' ' <= c <= '/' }

  /** Final byte: 0x40-0x7E. */
  predicate IsFinal(c: char) { '@' <= c <= '~' }

  predicate AllParam(t: seq<char>) { forall i | 0 <= i < |t| :: IsParam(t[i]) }

  predicate AllInter(t: seq<char>) { forall i | 0 <= i < |t| :: IsInter(t[i]) }

  predicate NoEsc(t: seq<char>) { forall i | 0 <= i < |t| :: t[i] != ESC }

  /**
   * The language of the pattern, stated without any scanning: ESC, an Fe byte,
   * a run of parameter bytes, a run of intermediate bytes, a final byte.
   */
  ghost predicate IsControlSequence(t: seq<char>) {
    && |t| >= 3
    && t[0] == ESC
    && IsFe(t[1])
    && IsFinal(t[|t| - 1])
    && exists k :: 2 <= k <= |t| - 1 && AllParam(t[2..k]) && AllInter(t[k..|t| - 1])
  }

  /** End of the longest run of parameter bytes starting at `i`. */
  function ParamEnd(s: seq<char>, i: nat): (j: nat)
    requires i <= |s|
    ensures i <= j <= |s|
    ensures forall k | i <= k < j :: IsParam(s[k])
    ensures j == |s| || !IsParam(s[j])
    decreases |s| - i
  {
    if i == |s| || !IsParam(s[i]) then i else ParamEnd(s, i + 1)
  }

  /** End of the longest run of intermediate bytes starting at `i`. */
  function InterEnd(s: seq<char>, i: nat): (j: nat)
    requires i <= |s|
    ensures i <= j <= |s|
    ensures forall k | i <= k < j :: IsInter(s[k])
    ensures j == |s| || !IsInter(s[j])
    decreases |s| - i
  {
    if i == |s| || !IsInter(s[i]) then i else InterEnd(s, i + 1)
  }

  /**
   * Length of the match of the pattern at the start of `s`, or 0 when the
   * pattern does not match there.
   */
  function MatchLength(s: seq<char>): (n: nat)
    ensures n == 0 || (3 <= n <= |s| && s[0] == ESC && IsControlSequence(s[..n]))
  {
    if |s| < 2 || s[0] != ESC || !IsFe(s[1]) then 0
    else
      var p := ParamEnd(s, 2);
      var q := InterEnd(s, p);
      if q < |s| && IsFinal(s[q]) then
        var t := s[..q + 1];
        assert AllParam(t[2..p]) by {
          forall i | 0 <= i < p - 2 ensures IsParam(t[2..p][i]) {
            assert t[2..p][i] == s[i + 2];
          }
        }
        assert AllInter(t[p..q]) by {
          forall i | 0 <= i < q - p ensures IsInter(t[p..q][i]) {
            assert t[p..q][i] == s[i + p];
          }
        }
        q + 1
      else 0
  }

  /** Deletes every match, left to right, in one pass (`ansi_escape.sub('', line)`). */
  function Strip(s: seq<char>): (r: seq<char>)
    ensures |r| <= |s|
    decreases |s|
  {
    if |s| == 0 then []
    else
      var n := MatchLength(s);
      if n > 0 then Strip(s[n..]) else [s[0]] + Strip(s[1..])
  }

  /** `a` can be obtained from `b` by deleting characters. */
  predicate IsSubsequence(a: seq<char>, b: seq<char>)
    decreases |b|
  {
    if |a| == 0 then true
    else if |b| == 0 then false
    else (a[0] == b[0] && IsSubsequence(a[1..], b[1..])) || IsSubsequence(a, b[1..])
  }

  lemma {:induction false} SubsequenceDrop(a: seq<char>, b: seq<char>, n: nat)
    requires n <= |b|
    requires IsSubsequence(a, b[n..])
    ensures IsSubsequence(a, b)
    decreases n
  {
    if n > 0 {
      assert b[1..][n - 1..] == b[n..];
      SubsequenceDrop(a, b[1..], n - 1);
    }
  }

  /**
   * What happens at the front of a line is decided by the pattern's language
   * alone: a control sequence there is deleted as a whole ...
   */
  lemma StripFrontSequence(s: seq<char>, m: nat)
    requires 0 < m <= |s| && IsControlSequence(s[..m])
    ensures Strip(s) == Strip(s[m..])
  {
    MatchLengthUnique(s, m);
  }

  /** ... and when no prefix is a control sequence, the first character is kept. */
  lemma StripFrontKept(s: seq<char>)
    requires |s| > 0
    requires forall m | 0 < m <= |s| :: !IsControlSequence(s[..m])
    ensures Strip(s) == [s[0]] + Strip(s[1..])
  {
    assert MatchLength(s) == 0;
  }

  /** A subsequence of a prefix is a subsequence of the whole. */
  lemma {:induction false} SubsequenceOfPrefix(a: seq<char>, p: seq<char>, b: seq<char>)
    requires p <= b
    requires IsSubsequence(a, p)
    ensures IsSubsequence(a, b)
    decreases |p|
  {
    if |a| > 0 {
      assert |p| > 0;
      if a[0] == p[0] && IsSubsequence(a[1..], p[1..]) {
        SubsequenceOfPrefix(a[1..], p[1..], b[1..]);
      } else {
        SubsequenceOfPrefix(a, p[1..], b[1..]);
      }
    }
  }

  /** The stripper only deletes characters: its output is a subsequence of its input. */
  lemma {:induction false} StripIsSubsequence(s: seq<char>)
    ensures IsSubsequence(Strip(s), s)
    decreases |s|
  {
    if |s| > 0 {
      var n := MatchLength(s);
      if n > 0 {
        StripIsSubsequence(s[n..]);
        SubsequenceDrop(Strip(s), s, n);
      } else {
        StripIsSubsequence(s[1..]);
      }
    }
  }

  /** A line without ESC comes back unchanged. */
  lemma {:induction false} StripWithoutEsc(s: seq<char>)
    requires NoEsc(s)
    ensures Strip(s) == s
    decreases |s|
  {
    if |s| > 0 {
      assert MatchLength(s) == 0;
      StripWithoutEsc(s[1..]);
    }
  }

  /** Escape-free text in front of anything is copied through unchanged. */
  lemma {:induction false} StripPlainPrefix(a: seq<char>, b: seq<char>)
    requires NoEsc(a)
    ensures Strip(a + b) == a + Strip(b)
    decreases |a|
  {
    if |a| == 0 {
      assert a + b == b;
    } else {
      NoEscTail(a);
      StripPlainHead(a, b);
      StripPlainPrefix(a[1..], b);
      ConsAppend(a, Strip(b));
    }
  }

  /** The first character of escape-free text is copied, and scanning goes on after it. */
  lemma StripPlainHead(a: seq<char>, b: seq<char>)
    requires |a| > 0 && a[0] != ESC
    ensures Strip(a + b) == [a[0]] + Strip(a[1..] + b)
  {
    StripKeepsFirst(a[0], a[1..] + b);
    ConsAppend(a, b);
  }

  lemma ConsAppend(a: seq<char>, b: seq<char>)
    requires |a| > 0
    ensures [a[0]] + (a[1..] + b) == a + b
  {
    assert a == [a[0]] + a[1..];
  }

  lemma NoEscTail(a: seq<char>)
    requires |a| > 0 && NoEsc(a)
    ensures a[0] != ESC && NoEsc(a[1..])
  {
    forall i | 0 <= i < |a| - 1 ensures a[1..][i] != ESC {
      assert a[1..][i] == a[i + 1];
    }
  }

  /** A character other than ESC is always kept. */
  lemma StripKeepsFirst(x: char, rest: seq<char>)
    requires x != ESC
    ensures Strip([x] + rest) == [x] + Strip(rest)
  {
    var s := [x] + rest;
    assert s[0] == x;
    assert MatchLength(s) == 0;
    assert s[1..] == rest;
  }

  /**
   * The pattern is deterministic: at any position it matches exactly one prefix
   * length or none, so the greedy scan never needs to backtrack.
   */
  lemma MatchLengthUnique(s: seq<char>, m: nat)
    requires m <= |s|
    ensures IsControlSequence(s[..m]) <==> (m > 0 && m == MatchLength(s))
  {
    if IsControlSequence(s[..m]) {
      var t := s[..m];
      var k :| 2 <= k <= |t| - 1 && AllParam(t[2..k]) && AllInter(t[k..|t| - 1]);
      var p := ParamEnd(s, 2);
      assert forall i | 2 <= i < k :: IsParam(s[i]) by {
        forall i | 2 <= i < k ensures IsParam(s[i]) {
          assert t[2..k][i - 2] == s[i];
        }
      }
      assert forall i | k <= i < m - 1 :: IsInter(s[i]) by {
        forall i | k <= i < m - 1 ensures IsInter(s[i]) {
          assert t[k..|t| - 1][i - k] == s[i];
        }
      }
    }
  }

  /** A complete control sequence in front of anything is deleted as a whole. */
  lemma StripSequencePrefix(c: seq<char>, b: seq<char>)
    requires IsControlSequence(c)
    ensures Strip(c + b) == Strip(b)
  {
    var s := c + b;
    assert s[..|c|] == c;
    MatchLengthUnique(s, |c|);
    assert s[|c|..] == b;
  }

  /**
   * Every Select Graphic Rendition code `ESC [ <parameters> m` (section 8.3.117
   * of ECMA-48), the colour codes devices send, is matched as a whole.
   */
  lemma SgrIsControlSequence(params: seq<char>)
    requires AllParam(params)
    ensures IsControlSequence([ESC] + (['['] + params + ['m']))
  {
    var t := [ESC] + (['['] + params + ['m']);
    var k := 2 + |params|;
    assert t[2..k] == params;
    assert t[k..|t| - 1] == [];
  }

  /** A piece of a rendered line: plain text, or one control sequence. */
  datatype Piece = Text(text: seq<char>) | Control(code: seq<char>)

  ghost predicate WellFormed(ps: seq<Piece>) {
    forall i | 0 <= i < |ps| ::
      match ps[i]
      case Text(t) => NoEsc(t)
      case Control(c) => IsControlSequence(c)
  }

  /** The characters a device sends for a line made of these pieces. */
  function Render(ps: seq<Piece>): seq<char> {
    if |ps| == 0 then []
    else
      match ps[0]
      case Text(t) => t + Render(ps[1..])
      case Control(c) => c + Render(ps[1..])
  }

  /** The text of the pieces with every control sequence left out. */
  function PlainText(ps: seq<Piece>): seq<char> {
    if |ps| == 0 then []
    else
      match ps[0]
      case Text(t) => t + PlainText(ps[1..])
      case Control(_) => PlainText(ps[1..])
  }

  /**
   * Stripping undoes the interleaving of control sequences with escape-free text:
   * whatever sequences a device wraps its text in, the plain text comes back.
   */
  lemma {:induction false} StripRender(ps: seq<Piece>)
    requires WellFormed(ps)
    ensures Strip(Render(ps)) == PlainText(ps)
    decreases |ps|
  {
    if |ps| > 0 {
      assert WellFormed(ps[1..]) by {
        forall i | 0 <= i < |ps[1..]| ensures
          match ps[1..][i]
          case Text(t) => NoEsc(t)
          case Control(c) => IsControlSequence(c)
        {
          assert ps[1..][i] == ps[i + 1];
        }
      }
      StripRender(ps[1..]);
      match ps[0]
      case Text(t) =>
        assert NoEsc(t) by { assert ps[0] == Text(t); }
        StripPlainPrefix(t, Render(ps[1..]));
      case Control(c) =>
        assert IsControlSequence(c) by { assert ps[0] == Control(c); }
        StripSequencePrefix(c, Render(ps[1..]));
    }
  }
}

=== FILE: examples.dfy ===
/**
 * Typical lines through the model: coloured output, escape sequences that a
 * single pass leaves behind or does not recognise, undecodable bytes, and the
 * two clock formats at a fixed reading.
 */
module Examples {
  import Utf8
  import Escapes
  import Whitespace
  import Clock
  import Pipeline

  /** The colour code for red text, and the reset that ends it. */
  const Red: string := "\U{1B}[31m"
  const Reset: string := "\U{1B}[0m"

  lemma ColourCodes()
    ensures Escapes.IsControlSequence(Red) && Escapes.IsControlSequence(Reset)
  {
    Escapes.SgrIsControlSequence("31");
    Escapes.SgrIsControlSequence("0");
    assert [Escapes.ESC] + (['['] + "31" + ['m']) == Red;
    assert [Escapes.ESC] + (['['] + "0" + ['m']) == Reset;
  }

  /** Text sent in red loses exactly its colour codes. */
  lemma ColouredLine(text: string)
    requires Escapes.NoEsc(text)
    ensures Escapes.Strip(Red + text + Reset) == text
  {
    ColourCodes();
    Escapes.StripSequencePrefix(Red, text + Reset);
    Escapes.StripPlainPrefix(text, Reset);
    Escapes.StripSequencePrefix(Reset, []);
    assert Reset + [] == Reset;
    assert Red + text + Reset == Red + (text + Reset);
  }

  /**
   * A red line with any line ending is logged as its text. Whitespace at the end
   * of the text survives: `rstrip()` ran while the reset code still followed it.
   */
  lemma ColouredLineLogged(text: string, ending: string)
    requires Escapes.NoEsc(text)
    requires Whitespace.AllSpace(ending)
    ensures Pipeline.CleanLine(Utf8.Encode(Red + text + Reset + ending)) == text
  {
    var shown := Red + text + Reset;
    Utf8.DecodeEncode(shown + ending);
    assert shown[|shown| - 1] == 'm';
    Whitespace.RStripTrailing(shown, ending);
    ColouredLine(text);
  }

  /**
   * Matches are removed in one pass without rescanning. In ESC ESC [ m [ m the
   * inner ESC [ m is deleted, which brings together a new sequence ESC [ m that
   * stays. So the result can hold ESC, and stripping twice differs from
   * stripping once.
   */
  lemma OnePassOnly(inner: string, outer: string)
    requires Escapes.AllParam(inner) && Escapes.AllParam(outer)
    ensures var code, tail := [Escapes.ESC] + (['['] + inner + ['m']), ['['] + outer + ['m'];
      && Escapes.Strip([Escapes.ESC] + code + tail) == [Escapes.ESC] + tail
      && Escapes.Strip([Escapes.ESC] + tail) == []
  {
    var code, tail := [Escapes.ESC] + (['['] + inner + ['m']), ['['] + outer + ['m'];
    var line := [Escapes.ESC] + code + tail;
    assert line[1] == Escapes.ESC && !Escapes.IsFe(line[1]);
    assert Escapes.MatchLength(line) == 0;
    assert line[1..] == code + tail;
    Escapes.SgrIsControlSequence(inner);
    Escapes.StripSequencePrefix(code, tail);
    assert Escapes.NoEsc(tail) by {
      forall i | 0 <= i < |tail| ensures tail[i] != Escapes.ESC {
        if 0 < i < |tail| - 1 {
          assert tail[i] == outer[i - 1];
        }
      }
    }
    Escapes.StripWithoutEsc(tail);
    Escapes.SgrIsControlSequence(outer);
    Escapes.StripSequencePrefix([Escapes.ESC] + tail, []);
    assert [Escapes.ESC] + tail + [] == [Escapes.ESC] + tail;
  }

  /** An ESC followed by a character that cannot introduce a sequence is kept, with what follows. */
  lemma LoneEscKept(x: char, rest: string)
    requires !Escapes.IsFe(x) && x != Escapes.ESC
    requires Escapes.NoEsc(rest)
    ensures Escapes.Strip([Escapes.ESC, x] + rest) == [Escapes.ESC, x] + rest
  {
    var s := [Escapes.ESC, x] + rest;
    assert Escapes.MatchLength(s) == 0;
    assert Escapes.NoEsc(s[1..]) by {
      forall i | 0 <= i < |s| - 1 ensures s[1..][i] != Escapes.ESC {
        if i > 0 {
          assert s[1..][i] == rest[i - 1];
        }
      }
    }
    Escapes.StripWithoutEsc(s[1..]);
    assert s == [s[0]] + s[1..];
  }

  /** A sequence cut off before its final byte, as at the end of a line, is kept. */
  lemma TruncatedSequenceKept(params: string)
    requires Escapes.AllParam(params)
    ensures Escapes.Strip([Escapes.ESC, '['] + params) == [Escapes.ESC, '['] + params
  {
    var s := [Escapes.ESC, '['] + params;
    assert forall i | 2 <= i < |s| :: Escapes.IsParam(s[i]) by {
      forall i | 2 <= i < |s| ensures Escapes.IsParam(s[i]) {
        assert s[i] == params[i - 2];
      }
    }
    assert Escapes.ParamEnd(s, 2) == |s|;
    assert Escapes.MatchLength(s) == 0;
    assert Escapes.NoEsc(s[1..]) by {
      forall i | 0 <= i < |s| - 1 ensures s[1..][i] != Escapes.ESC {
        if i > 0 {
          assert s[1..][i] == params[i - 1];
        }
      }
    }
    Escapes.StripWithoutEsc(s[1..]);
    assert s == [s[0]] + s[1..];
  }

  /**
   * A two-byte lead without its continuation byte, anywhere after well-formed
   * text, turns the whole line into the sentinel.
   */
  lemma TruncatedCharacter(text: string, lead: Utf8.byte, next: Utf8.byte, more: seq<Utf8.byte>)
    requires 0xC2 <= lead <= 0xDF && !Utf8.IsTail(next)
    ensures Pipeline.CleanLine(Utf8.Encode(text) + ([lead, next] + more)) == Pipeline.DecodingError
  {
    Utf8.DecodeFailsAfterEncoded(text, [lead, next] + more);
  }

  /** So does an encoded UTF-16 surrogate, which strict UTF-8 rejects. */
  lemma EncodedSurrogate(text: string, b1: Utf8.byte, b2: Utf8.byte, more: seq<Utf8.byte>)
    requires 0xA0 <= b1 <= 0xBF
    ensures Pipeline.CleanLine(Utf8.Encode(text) + ([0xED, b1, b2] + more)) == Pipeline.DecodingError
  {
    Utf8.DecodeFailsAfterEncoded(text, [0xED, b1, b2] + more);
  }

  /** The line timestamp for 09:05:03 on 10 July 2024. */
  lemma StampFormat()
    ensures Clock.Stamp(Clock.DateTime(2024, 7, 10, 9, 5, 3)) == "2024-07-10 09:05:03"
  {
  }

  /** The log file name for the same reading. */
  lemma LogFileNameFormat()
    ensures Clock.LogFileName(Clock.DateTime(2024, 7, 10, 9, 5, 3)) == "serial_log_20240710_090503.log"
  {
  }

  /** Any line read at 09:05:03 on 10 July 2024 is logged behind that timestamp and " - ". */
  lemma EntryAtExampleTime(raw: seq<Utf8.byte>)
    ensures Pipeline.Entry(Clock.DateTime(2024, 7, 10, 9, 5, 3), raw) == "2024-07-10 09:05:03 - " + Pipeline.CleanLine(raw)
  {
    StampFormat();
  }
}

=== FILE: logger.dfy ===
/**
 * The whole logger as one sequential system: menu commands, passes of the port
 * watcher and iterations of the reader, in any order. Each event is taken as
 * one indivisible step; how the threads interleave inside a step is not
 * represented.
 */
module Logger {
  import opened Wrappers
  import Clock
  import opened Sessions
  import Reader
  import Watcher

  datatype Event =
    | Menu(command: Command)
    | Timer(poll: Watcher.Poll)
    | Serial(read: Reader.ReadEvent)

  datatype World = World(watch: Watcher.Watch, session: Session)

  predicate ValidEvent(e: Event) {
    match e
    case Menu(c) => ValidCommand(c)
    case Timer(p) => Clock.Valid(p.now)
    case Serial(r) => r.Received? ==> Clock.Valid(r.at)
  }

  predicate ValidEvents(es: seq<Event>) {
    forall i | 0 <= i < |es| :: ValidEvent(es[i])
  }

  /** The program right after start-up: no port, no log file, watcher running. */
  function Boot(): World {
    World(Watcher.Begin(), Initial())
  }

  function Step(w: World, e: Event): (r: World)
    requires ValidEvent(e)
    ensures !e.Timer? ==> r.watch == w.watch
    ensures e.Serial? && !w.session.readerRunning ==> r == w
    ensures !w.watch.alive ==> r.watch == w.watch
  {
    match e
    case Menu(c) => w.(session := Apply(w.session, c))
    case Timer(p) =>
      var (watch, session) := Watcher.Tick(w.watch, w.session, p);
      World(watch, session)
    case Serial(r) =>
      if w.session.readerRunning then w.(session := Reader.ReadSerial(w.session, [r])) else w
  }

  function Run(w: World, es: seq<Event>): (r: World)
    requires ValidEvents(es)
    ensures !w.watch.alive ==> r.watch == w.watch
    ensures r.session.running ==> w.session.running
    decreases |es|
  {
    if |es| == 0 then w else Run(Step(w, es[0]), es[1..])
  }

  lemma StepPreservesInv(w: World, e: Event)
    requires ValidEvent(e) && Inv(w.session)
    ensures Inv(Step(w, e).session)
  {
    match e
    case Menu(c) => ApplyPreservesInv(w.session, c);
    case Timer(p) => Watcher.TickPreservesInv(w.watch, w.session, p);
    case Serial(r) =>
      if w.session.readerRunning {
        Reader.ReadSerialPreservesInv(w.session, [r]);
      }
  }

  /**
   * Whatever the user, the watcher and the reader do, in whatever order, a log
   * file is held exactly while logging is active, an open port means logging is
   * active, and a reader runs only on an open port.
   */
  lemma {:induction false} RunPreservesInv(w: World, es: seq<Event>)
    requires ValidEvents(es) && Inv(w.session)
    ensures Inv(Run(w, es).session)
    decreases |es|
  {
    if |es| > 0 {
      StepPreservesInv(w, es[0]);
      assert ValidEvents(es[1..]) by {
        forall i | 0 <= i < |es| - 1 ensures es[1..][i] == es[i + 1] { }
      }
      RunPreservesInv(Step(w, es[0]), es[1..]);
    }
  }

  /** Every state reachable from start-up satisfies the invariant. */
  lemma ReachableInv(es: seq<Event>)
    requires ValidEvents(es)
    ensures Inv(Run(Boot(), es).session)
  {
    InitialInv();
    RunPreservesInv(Boot(), es);
  }

  predicate AllSerial(es: seq<Event>) {
    forall i | 0 <= i < |es| :: es[i].Serial?
  }

  /** With no reader thread, whatever the port delivers is never read. */
  lemma {:induction false} NothingReadWithoutReader(w: World, es: seq<Event>)
    requires ValidEvents(es) && AllSerial(es) && !w.session.readerRunning
    ensures Run(w, es) == w
    decreases |es|
  {
    if |es| > 0 {
      assert Step(w, es[0]) == w;
      assert ValidEvents(es[1..]) && AllSerial(es[1..]) by {
        forall i | 0 <= i < |es| - 1 ensures es[1..][i] == es[i + 1] { }
      }
      NothingReadWithoutReader(w, es[1..]);
    }
  }

  /**
   * Disconnecting from the menu closes the port, which ends the reader, but
   * leaves logging active. When the next watcher pass finds one more port it
   * opens it, keeps the log file and starts no reader, because logging is still
   * active. The program then holds an open port and its log file, and
   * nothing the port sends is ever logged.
   */
  lemma ReaderLostAfterDisconnect(w: World, p: Watcher.Poll, later: seq<Event>)
    requires Inv(w.session) && w.session.loggingActive && Clock.Valid(p.now)
    requires w.watch.alive && p.scan.Some? && |p.scan.value| > |w.watch.previous| && p.opens
    requires ValidEvents(later) && AllSerial(later)
    ensures ValidEvents([Menu(PortDisconnect), Timer(p)])
    ensures var lost := Run(w, [Menu(PortDisconnect), Timer(p)]);
      && PortOpen(lost.session.port) && lost.session.loggingActive && !lost.session.readerRunning
      && lost.session.logFile == w.session.logFile
      && Run(lost, later) == lost
  {
    var es := [Menu(PortDisconnect), Timer(p)];
    var cut := Step(w, es[0]);
    assert es[1..] == [Timer(p)] && es[1..][1..] == [];
    var lost := Step(cut, Timer(p));
    assert Run(w, es) == Run(cut, es[1..]);
    assert Run(cut, es[1..]) == Run(lost, []);
    NothingReadWithoutReader(lost, later);
  }

  /**
   * The state is reachable from start-up: one device connects, the user
   * disconnects, and a second device is plugged in before the next pass.
   */
  lemma LostReaderReachable(a: string, b: string, t1: Clock.DateTime, t2: Clock.DateTime)
    requires Clock.Valid(t1) && Clock.Valid(t2)
    ensures var es := [Timer(Watcher.Poll(Some([a]), true, t1)), Menu(PortDisconnect),
                       Timer(Watcher.Poll(Some([a, b]), true, t2))];
      && ValidEvents(es)
      && var lost := Run(Boot(), es).session;
      && lost.port == Port(b, true) && lost.loggingActive && !lost.readerRunning
      && lost.logFile == Some(LogHandle(Clock.LogFileName(t1), true))
  {
    var first := Timer(Watcher.Poll(Some([a]), true, t1));
    var second := Timer(Watcher.Poll(Some([a, b]), true, t2));
    var es := [first, Menu(PortDisconnect), second];
    var connected := Step(Boot(), first);
    assert connected.session.logFile == Some(LogHandle(Clock.LogFileName(t1), true));
    assert es[1..] == [Menu(PortDisconnect), second];
    assert Run(Boot(), es) == Run(connected, [Menu(PortDisconnect), second]);
    var tail := [Menu(PortDisconnect), second];
    var cut := Step(connected, tail[0]);
    assert tail[1..] == [second] && tail[1..][1..] == [];
    assert Run(connected, tail) == Run(cut, [second]);
    assert Run(cut, [second]) == Run(Step(cut, second), []);
    assert [a, b][|[a, b]| - 1] == b;
  }
}

=== FILE: pipeline.dfy ===
/**
 * What `read_serial` makes of one raw line (CIAP/main.py:186-204): decode it as
 * UTF-8, or substitute a sentinel; right-strip it; delete escape sequences; put
 * the timestamp and " - " in front.
 */
module Pipeline {
  import opened Wrappers
  import Utf8
  import Escapes
  import Whitespace
  import Clock

  /** What is logged in place of a line that is not valid UTF-8. */
  const DecodingError: string := "<Decoding Error>"

  /** The separator between the timestamp and the line in every entry. */
  const Separator: string := " - "

  /**
   * The text of one line as logged. On a decoding failure it is the sentinel,
   * with neither stripping step applied; otherwise trailing whitespace goes
   * first and escape sequences second.
   */
  function CleanLine(raw: seq<Utf8.byte>): (line: string)
    ensures Utf8.Decode(raw).None? ==> line == DecodingError
    ensures Utf8.Decode(raw).Some? ==> Escapes.IsSubsequence(line, Utf8.Decode(raw).value)
  {
    match Utf8.Decode(raw)
    case None => DecodingError
    case Some(text) =>
      var trimmed := Whitespace.RStrip(text);
      Escapes.StripIsSubsequence(trimmed);
      Escapes.SubsequenceOfPrefix(Escapes.Strip(trimmed), trimmed, text);
      Escapes.Strip(trimmed)
  }

  /** `f"{timestamp} - {line}"`, the entry for one line read at time `t`. */
  function Entry(t: Clock.DateTime, raw: seq<Utf8.byte>): (e: string)
    requires Clock.Valid(t)
    ensures |e| == 22 + |CleanLine(raw)|
  {
    Clock.Stamp(t) + Separator + CleanLine(raw)
  }

  /** Splits an entry back into its clock reading and its line. */
  function SplitEntry(e: string): (r: Option<(Clock.DateTime, string)>)
    ensures r.Some? ==> |e| >= 22 && e[19..22] == Separator && Clock.Valid(r.value.0) && |r.value.1| == |e| - 22
  {
    if |e| < 22 || e[19..22] != Separator then None
    else
      match Clock.ParseStamp(e[..19])
      case None => None
      case Some(t) => Some((t, e[22..]))
  }

  /** An entry carries its reading time and its line, and nothing else. */
  lemma SplitEntryRoundTrip(t: Clock.DateTime, raw: seq<Utf8.byte>)
    requires Clock.Valid(t)
    ensures SplitEntry(Entry(t, raw)) == Some((t, CleanLine(raw)))
  {
    var e := Entry(t, raw);
    assert e[..19] == Clock.Stamp(t);
    assert e[19..22] == Separator;
    assert e[22..] == CleanLine(raw);
    Clock.ParseStampRoundTrip(t);
  }

  /** A decoded line without ESC is only right-stripped. */
  lemma CleanLineWithoutEsc(raw: seq<Utf8.byte>)
    requires Utf8.Decode(raw).Some?
    requires Escapes.NoEsc(Utf8.Decode(raw).value)
    ensures CleanLine(raw) == Whitespace.RStrip(Utf8.Decode(raw).value)
  {
    var text := Utf8.Decode(raw).value;
    var trimmed := Whitespace.RStrip(text);
    assert Escapes.NoEsc(trimmed) by {
      forall i | 0 <= i < |trimmed| ensures trimmed[i] != Escapes.ESC {
        assert trimmed[i] == text[i];
      }
    }
    Escapes.StripWithoutEsc(trimmed);
  }

  /**
   * End to end: a device that sends escape-free text interleaved with control
   * sequences, in UTF-8, followed by a line ending, has exactly its text logged.
   */
  lemma CleanLineOfRenderedLine(ps: seq<Escapes.Piece>, ending: string)
    requires Escapes.WellFormed(ps)
    requires var shown := Escapes.Render(ps); |shown| == 0 || !Whitespace.IsSpace(shown[|shown| - 1])
    requires Whitespace.AllSpace(ending)
    ensures CleanLine(Utf8.Encode(Escapes.Render(ps) + ending)) == Escapes.PlainText(ps)
  {
    var text := Escapes.Render(ps) + ending;
    Utf8.DecodeEncode(text);
    Whitespace.RStripTrailing(Escapes.Render(ps), ending);
    Escapes.StripRender(ps);
  }
}

=== FILE: reader.dfy ===
/**
 * The reader thread `read_serial` (CIAP/main.py:180-216) as a sequential fold
 * over what the port delivers. Polling `in_waiting` and the 0.1 s sleep between
 * polls produce no state change and are not represented; each event is a line
 * `readline` returned at a clock reading, or a fault raised by the port.
 */
module Reader {
  import opened Wrappers
  import Utf8
  import Clock
  import Pipeline
  import opened Sessions

  datatype ReadEvent = Received(raw: seq<Utf8.byte>, at: Clock.DateTime) | Fault

  predicate ValidEvents(evs: seq<ReadEvent>) {
    forall i | 0 <= i < |evs| :: evs[i].Received? ==> Clock.Valid(evs[i].at)
  }

  predicate AllReceived(evs: seq<ReadEvent>) {
    forall i | 0 <= i < |evs| :: evs[i].Received?
  }

  /** The text one received line adds to the console and to the log file. */
  function Line(raw: seq<Utf8.byte>, at: Clock.DateTime): string
    requires Clock.Valid(at)
  {
    Pipeline.Entry(at, raw) + "\n"
  }

  /** The reader thread has returned. */
  function Ended(s: Session): (r: Session)
    ensures !r.readerRunning
  {
    s.(readerRunning := false)
  }

  /**
   * One iteration of the loop body, and whether the loop goes on. A fault, or
   * the ValueError of writing to a closed file, ends in `stop_logging` and `break`.
   */
  function Step(s: Session, ev: ReadEvent): (r: (Session, bool))
    requires ev.Received? ==> Clock.Valid(ev.at)
    ensures r.1 <==> ev.Received? && (s.logFile.Some? ==> s.logFile.value.isOpen)
    ensures r.1 ==> r.0.readerRunning == s.readerRunning
    ensures !r.1 ==> !r.0.loggingActive && !r.0.readerRunning && (s.loggingActive ==> !PortOpen(r.0.port))
    ensures !r.1 ==> r.0.files == s.files && r.0.title == s.title && r.0.alerts == s.alerts && r.0.running == s.running
    ensures ev.Received? ==> s.console + Line(ev.raw, ev.at) <= r.0.console
  {
    match ev
    case Fault => (Ended(StopLogging(s)), false)
    case Received(raw, at) =>
      var text := Line(raw, at);
      var shown := s.(console := s.console + text);
      match WriteLog(shown, text)
      case None => (Ended(StopLogging(shown)), false)
      case Some(written) => (written, true)
  }

  /**
   * The reader's loop (CIAP/main.py:183), which runs while a port exists and is
   * open, over the events in order. With the port closed the thread returns; once the events run out it
   * is still waiting for more.
   */
  function ReadSerial(s: Session, evs: seq<ReadEvent>): (r: Session)
    requires ValidEvents(evs)
    ensures s.console <= r.console
    ensures r.title == s.title && r.alerts == s.alerts && r.running == s.running
    ensures !PortOpen(r.port) ==> !r.readerRunning
    decreases |evs|
  {
    if !PortOpen(s.port) then Ended(s)
    else if |evs| == 0 then s
    else
      var (next, more) := Step(s, evs[0]);
      if more then ReadSerial(next, evs[1..]) else next
  }

  /** The loop as the program writes it, one event per iteration. */
  method ReadLoop(s: Session, evs: seq<ReadEvent>) returns (r: Session)
    requires ValidEvents(evs)
    ensures r == ReadSerial(s, evs)
  {
    r := s;
    var i := 0;
    while i < |evs| && PortOpen(r.port)
      invariant 0 <= i <= |evs|
      invariant ValidEvents(evs[i..])
      invariant ReadSerial(r, evs[i..]) == ReadSerial(s, evs)
    {
      assert evs[i..][1..] == evs[i + 1..];
      var (next, more) := Step(r, evs[i]);
      r := next;
      if !more {
        return;
      }
      i := i + 1;
    }
    if !PortOpen(r.port) {
      r := Ended(r);
    }
  }

  /** Everything a run of received lines contributes, in order. */
  function Transcript(evs: seq<ReadEvent>): string
    requires ValidEvents(evs) && AllReceived(evs)
  {
    if |evs| == 0 then "" else Line(evs[0].raw, evs[0].at) + Transcript(evs[1..])
  }

  /** The files after `text` is written to the held log file, if there is one. */
  function Logged(s: Session, text: string): map<string, string> {
    if s.logFile.Some? then Append(s.files, s.logFile.value.name, text) else s.files
  }

  /** With a usable log file, a received line goes to the console and the file and the loop goes on. */
  lemma StepReceived(s: Session, ev: ReadEvent)
    requires ev.Received? && Clock.Valid(ev.at)
    requires s.logFile.Some? ==> s.logFile.value.isOpen
    ensures Step(s, ev) == (s.(console := s.console + Line(ev.raw, ev.at), files := Logged(s, Line(ev.raw, ev.at))), true)
  {
  }

  lemma TailEvents(evs: seq<ReadEvent>)
    requires |evs| > 0 && ValidEvents(evs) && AllReceived(evs)
    ensures ValidEvents(evs[1..]) && AllReceived(evs[1..])
  {
    forall i | 0 <= i < |evs| - 1 ensures evs[1..][i] == evs[i + 1] { }
  }

  /**
   * While the port stays open and the log file (if any) is open, every line read
   * is appended to the console, the very same text goes to the log file, and
   * nothing else in the session changes.
   */
  lemma {:induction false} ReadSerialTranscript(s: Session, evs: seq<ReadEvent>)
    requires ValidEvents(evs) && AllReceived(evs)
    requires PortOpen(s.port)
    requires s.logFile.Some? ==> s.logFile.value.isOpen && s.logFile.value.name in s.files
    ensures ReadSerial(s, evs) == s.(console := s.console + Transcript(evs), files := Logged(s, Transcript(evs)))
    decreases |evs|
  {
    if |evs| == 0 {
      assert s.console + "" == s.console;
      if s.logFile.Some? {
        AppendNothing(s.files, s.logFile.value.name);
      }
    } else {
      var text := Line(evs[0].raw, evs[0].at);
      var rest := Transcript(evs[1..]);
      StepReceived(s, evs[0]);
      var next := s.(console := s.console + text, files := Logged(s, text));
      assert ReadSerial(s, evs) == ReadSerial(next, evs[1..]);
      TailEvents(evs);
      ReadSerialTranscript(next, evs[1..]);
      RecordTwice(s, text, rest);
    }
  }

  /** Recording two texts one after the other is recording their concatenation. */
  lemma RecordTwice(s: Session, a: string, b: string)
    ensures var next := s.(console := s.console + a, files := Logged(s, a));
      next.(console := next.console + b, files := Logged(next, b))
        == s.(console := s.console + (a + b), files := Logged(s, a + b))
  {
    assert s.console + a + b == s.console + (a + b);
    if s.logFile.Some? {
      AppendTwice(s.files, s.logFile.value.name, a, b);
    }
  }

  lemma AppendNothing(files: map<string, string>, name: string)
    requires name in files
    ensures Append(files, name, "") == files
  {
    assert files[name] + "" == files[name];
  }

  lemma AppendTwice(files: map<string, string>, name: string, a: string, b: string)
    ensures Append(Append(files, name, a), name, b) == Append(files, name, a + b)
  {
    assert Contents(files, name) + a + b == Contents(files, name) + (a + b);
  }

  /** Without an open port the reader returns at once and changes nothing else. */
  lemma ReadSerialClosedPort(s: Session, evs: seq<ReadEvent>)
    requires ValidEvents(evs) && !PortOpen(s.port)
    ensures ReadSerial(s, evs) == s.(readerRunning := false)
  {
  }

  /** A fault stops logging, and whatever the port would deliver afterwards is never read. */
  lemma ReadSerialFault(s: Session, rest: seq<ReadEvent>)
    requires ValidEvents(rest) && PortOpen(s.port)
    ensures ValidEvents([Fault] + rest)
    ensures ReadSerial(s, [Fault] + rest) == StopLogging(s).(readerRunning := false)
  {
    assert ([Fault] + rest)[0] == Fault;
  }

  /** The reader keeps the session invariant. */
  lemma {:induction false} ReadSerialPreservesInv(s: Session, evs: seq<ReadEvent>)
    requires ValidEvents(evs) && Inv(s)
    ensures Inv(ReadSerial(s, evs))
    decreases |evs|
  {
    if |evs| > 0 && PortOpen(s.port) {
      var (next, more) := Step(s, evs[0]);
      assert Inv(next);
      if more {
        assert ValidEvents(evs[1..]) by {
          forall i | 0 <= i < |evs| - 1 ensures evs[1..][i] == evs[i + 1] { }
        }
        ReadSerialPreservesInv(next, evs[1..]);
      }
    }
  }
}

=== FILE: sessions.dfy ===
/**
 * The logging session of `SerialUtility`: the serial port, the log file and the
 * `logging_active` flag, with the transitions that the menus, the port watcher
 * and the reader apply to them (CIAP/main.py:22-24, 153-178, 441-446, 513-524).
 *
 * Besides the three fields the state records what the program shows: the
 * console text, the window title, the error dialogs raised, whether a reader
 * thread is running, whether the main loop still runs, and the contents of
 * every log file written so far.
 *
 * The reader thread loops while `self.serial_port.is_open` and checks that every
 * 0.1 s, so a transition that closes the port also ends the reader.
 */
module Sessions {
  import opened Wrappers
  import Clock

  /** `self.serial_port`: None until the watcher first opens a port; afterwards a handle that is open or closed. */
  datatype PortState = NoPort | Port(device: string, isOpen: bool)

  /** `self.log_file`: a file object, which stays truthy after `close()`. */
  datatype LogHandle = LogHandle(name: string, isOpen: bool)

  datatype Session = Session(
    port: PortState,
    logFile: Option<LogHandle>,
    loggingActive: bool,
    console: string,
    files: map<string, string>,
    title: string,
    alerts: seq<string>,
    readerRunning: bool,
    running: bool)

  const TitleConnected: string := "AEPL Logger (Connected)"
  const TitleDisconnected: string := "AEPL Logger (Disconnected)"
  const NoPortError: string := "No serial port available or it is not open."
  const StartedNote: string := "Logging started...\n"
  const StoppedNote: string := "Logging stopped.\n"
  const DisconnectedNote: string := "Disconnected from serial port.\n"

  /** The state `__init__` leaves behind (CIAP/main.py:14, 22-24). */
  function Initial(): (r: Session)
    ensures r.port.NoPort? && r.logFile.None? && !r.loggingActive && !r.readerRunning && r.running
    ensures Inv(r)
  {
    Session(NoPort, None, false, "", map[], TitleDisconnected, [], false, true)
  }

  predicate PortOpen(p: PortState) { p.Port? && p.isOpen }

  /** Closes the port when one exists and is open (CIAP/main.py:172-173). */
  function ClosePort(p: PortState): (q: PortState)
    ensures !PortOpen(q)
    ensures q.NoPort? <==> p.NoPort?
    ensures q.Port? ==> q.device == p.device
  {
    if PortOpen(p) then p.(isOpen := false) else p
  }

  /** What a file holds; a file not yet created holds nothing. */
  function Contents(files: map<string, string>, name: string): string {
    if name in files then files[name] else ""
  }

  /** Appends `text` to file `name`, creating it if needed, as mode 'a' does. */
  function Append(files: map<string, string>, name: string, text: string): (r: map<string, string>)
    ensures r.Keys == files.Keys + {name}
    ensures Contents(r, name) == Contents(files, name) + text
    ensures forall n | n in files && n != name :: r[n] == files[n]
  {
    files[name := Contents(files, name) + text]
  }

  /**
   * Writes `text` to the held log file, if any (CIAP/main.py:203-204). None stands for the ValueError
   * that writing to a closed file object raises.
   */
  function WriteLog(s: Session, text: string): (r: Option<Session>)
    ensures r.None? <==> s.logFile.Some? && !s.logFile.value.isOpen
    ensures r.Some? && s.logFile.Some? ==>
      r.value == s.(files := Append(s.files, s.logFile.value.name, text))
    ensures r.Some? && s.logFile.None? ==> r.value == s
  {
    match s.logFile
    case None => Some(s)
    case Some(h) => if h.isOpen then Some(s.(files := Append(s.files, h.name, text))) else None
  }

  /**
   * `start_logging` (CIAP/main.py:153-167) at clock reading `now`: refuses without
   * an open port; opens a log file in mode 'a' only when none is held, which
   * leaves an existing file's contents alone; starts a reader only when logging
   * was not active, so a reader that has ended is not replaced while logging stays on.
   */
  function StartLogging(s: Session, now: Clock.DateTime): (r: Session)
    requires Clock.Valid(now)
    ensures !PortOpen(s.port) ==> r == s.(alerts := s.alerts + [NoPortError])
    ensures PortOpen(s.port) ==>
      && r.port == s.port && r.alerts == s.alerts && r.title == s.title && r.running == s.running
      && r.loggingActive && r.logFile.Some?
    ensures PortOpen(s.port) && s.logFile.Some? ==> r.logFile == s.logFile && r.files == s.files
    ensures PortOpen(s.port) && s.logFile.None? ==>
      && r.logFile == Some(LogHandle(Clock.LogFileName(now), true))
      && r.files.Keys == s.files.Keys + {Clock.LogFileName(now)}
      && Contents(r.files, Clock.LogFileName(now)) == Contents(s.files, Clock.LogFileName(now))
      && forall n | n in s.files :: r.files[n] == s.files[n]
    ensures PortOpen(s.port) ==>
      if s.loggingActive then r.readerRunning == s.readerRunning && r.console == s.console
      else r.readerRunning && r.console == s.console + StartedNote
  {
    if !PortOpen(s.port) then s.(alerts := s.alerts + [NoPortError])
    else
      var name := Clock.LogFileName(now);
      var withFile :=
        if s.logFile.None? then s.(logFile := Some(LogHandle(name, true)), files := Append(s.files, name, ""))
        else s;
      if withFile.loggingActive then withFile
      else withFile.(loggingActive := true, console := withFile.console + StartedNote, readerRunning := true)
  }

  /**
   * `stop_logging` (CIAP/main.py:169-178): nothing at all unless logging is
   * active; then logging ends, the port is closed, which ends the reader, and
   * the log file is released.
   */
  function StopLogging(s: Session): (r: Session)
    ensures !s.loggingActive ==> r == s
    ensures s.loggingActive ==>
      && !r.loggingActive && r.logFile.None? && !PortOpen(r.port)
      && r.port == ClosePort(s.port)
      && r.files == s.files && r.console == s.console + StoppedNote
      && !r.readerRunning
      && r.alerts == s.alerts && r.title == s.title && r.running == s.running
  {
    if !s.loggingActive then s
    else s.(loggingActive := false, port := ClosePort(s.port), readerRunning := false, logFile := None,
            console := s.console + StoppedNote)
  }

  /**
   * `disconnect` (CIAP/main.py:513-517): closes the port but leaves logging and
   * the log file as they are. The reader sees the closed port and ends.
   */
  function Disconnect(s: Session): (r: Session)
    ensures !PortOpen(r.port) && (r.port.Port? <==> s.port.Port?) && !r.readerRunning
    ensures r.loggingActive == s.loggingActive && r.logFile == s.logFile && r.files == s.files
    ensures r.console == s.console + DisconnectedNote && r.title == TitleDisconnected
    ensures r.port == ClosePort(s.port) && r.alerts == s.alerts && r.running == s.running
  {
    s.(port := ClosePort(s.port), readerRunning := false, console := s.console + DisconnectedNote,
       title := TitleDisconnected)
  }

  /**
   * `exit_all` (CIAP/main.py:519-524): closes the port and the log file, then
   * quits the main loop. The file object stays referenced, closed.
   */
  function ExitAll(s: Session): (r: Session)
    ensures !PortOpen(r.port) && !r.running && !r.readerRunning
    ensures r.logFile.Some? <==> s.logFile.Some?
    ensures r.logFile.Some? ==> r.logFile.value.name == s.logFile.value.name && !r.logFile.value.isOpen
    ensures r.loggingActive == s.loggingActive && r.files == s.files && r.console == s.console
    ensures r.port == ClosePort(s.port) && r.title == s.title && r.alerts == s.alerts
  {
    var closed := match s.logFile
      case None => None
      case Some(h) => Some(h.(isOpen := false));
    s.(port := ClosePort(s.port), readerRunning := false, logFile := closed, running := false)
  }

  /**
   * `comment_to_log` (CIAP/main.py:441-446), with the dialog's answer as a
   * parameter (None when it was cancelled). A closed file object raises after
   * the console already shows the comment.
   */
  function CommentToLog(s: Session, comment: Option<string>): (r: Session)
    ensures comment.None? || comment.value == "" ==> r == s
    ensures comment.Some? && comment.value != "" ==>
      var text := "# " + comment.value + "\n";
      && r.console == s.console + text
      && r.logFile == s.logFile && r.loggingActive == s.loggingActive && r.port == s.port
      && r.title == s.title && r.alerts == s.alerts && r.readerRunning == s.readerRunning && r.running == s.running
      && (if s.logFile.Some? && s.logFile.value.isOpen then r.files == Append(s.files, s.logFile.value.name, text)
          else r.files == s.files)
  {
    if comment.None? || comment.value == "" then s
    else
      var text := "# " + comment.value + "\n";
      var shown := s.(console := s.console + text);
      match WriteLog(shown, text)
      case None => shown
      case Some(written) => written
  }

  /**
   * What holds in every state the program reaches: a log file is held exactly
   * while logging is active, and the held file exists on disk; logging never runs
   * before a port exists; a reader runs only while the port is open; an open
   * port means logging is active. An open port need not have a reader: see
   * `Logger.ReaderLostAfterDisconnect`.
   */
  predicate Inv(s: Session) {
    && (s.logFile.Some? <==> s.loggingActive)
    && (s.logFile.Some? ==> s.logFile.value.name in s.files)
    && (s.port.NoPort? ==> !s.loggingActive)
    && (s.readerRunning ==> PortOpen(s.port))
    && (PortOpen(s.port) ==> s.loggingActive)
  }

  /** The menu commands that act on the session (CIAP/main.py:45-46, 58-60, 78-79). */
  datatype Command = LogStart(now: Clock.DateTime) | LogStop | PortDisconnect | QuitAll | AddComment(answer: Option<string>)

  predicate ValidCommand(c: Command) { c.LogStart? ==> Clock.Valid(c.now) }

  function Apply(s: Session, c: Command): (r: Session)
    requires ValidCommand(c)
    ensures !c.QuitAll? ==> r.running == s.running
    ensures c.QuitAll? ==> !r.running && !PortOpen(r.port)
  {
    match c
    case LogStart(now) => StartLogging(s, now)
    case LogStop => StopLogging(s)
    case PortDisconnect => Disconnect(s)
    case QuitAll => ExitAll(s)
    case AddComment(answer) => CommentToLog(s, answer)
  }

  lemma InitialInv()
    ensures Inv(Initial())
  {
  }

  /** Every menu command keeps the invariant. */
  lemma ApplyPreservesInv(s: Session, c: Command)
    requires Inv(s) && ValidCommand(c)
    ensures Inv(Apply(s, c))
  {
  }

  /**
   * Starting twice is starting once: with an open port the second call opens no
   * file, starts no reader and changes nothing.
   */
  lemma StartLoggingIdempotent(s: Session, t1: Clock.DateTime, t2: Clock.DateTime)
    requires Clock.Valid(t1) && Clock.Valid(t2)
    requires PortOpen(s.port)
    ensures StartLogging(StartLogging(s, t1), t2) == StartLogging(s, t1)
  {
  }

  /** Without an open port every call only raises one more error dialog. */
  lemma StartLoggingWithoutPort(s: Session, t1: Clock.DateTime, t2: Clock.DateTime)
    requires Clock.Valid(t1) && Clock.Valid(t2)
    requires !PortOpen(s.port)
    ensures StartLogging(StartLogging(s, t1), t2) == s.(alerts := s.alerts + [NoPortError, NoPortError])
  {
  }

  lemma StopLoggingIdempotent(s: Session)
    ensures StopLogging(StopLogging(s)) == StopLogging(s)
  {
  }

  /**
   * Stopping closes the port, so starting right after a stop opens no new file:
   * it only reports the missing port. A new file needs the watcher to reopen a port.
   */
  lemma StartAfterStopRefused(s: Session, now: Clock.DateTime)
    requires Clock.Valid(now) && s.loggingActive
    ensures StartLogging(StopLogging(s), now) == StopLogging(s).(alerts := s.alerts + [NoPortError])
  {
  }
}

=== FILE: utf8.dfy ===
/**
 * The strict UTF-8 codec behind `line.decode('utf-8')` (CIAP/main.py:190).
 *
 * Decoding accepts exactly the byte strings of the UTF8-octets rule in section 4
 * of RFC 3629: no overlong forms, no encoded surrogates, nothing above U+10FFFF,
 * no truncated sequence. Anything else is a decoding failure, which the program
 * catches as UnicodeDecodeError.
 */
module Utf8 {
  import opened Wrappers

  type byte = x: int | 0 <= x < 256

  predicate IsTail(b: byte) { 0x80 <= b <= 0xBF }

  /** The bytes of one character: 1 to 4 of them, by the ranges of section 3 of RFC 3629. */
  function EncodeChar(c: char): (bs: seq<byte>)
    ensures 1 <= |bs| <= 4
    ensures |bs| == 1 <==> c as int < 0x80
  {
    var n := c as int;
    if n < 0x80 then [n]
    else if n < 0x800 then [0xC0 + n / 64, 0x80 + n % 64]
    else if n < 0x10000 then [0xE0 + n / 4096, 0x80 + n / 64 % 64, 0x80 + n % 64]
    else [0xF0 + n / 262144, 0x80 + n / 4096 % 64, 0x80 + n / 64 % 64, 0x80 + n % 64]
  }

  function Encode(s: seq<char>): (bs: seq<byte>)
    ensures |bs| >= |s|
  {
    if |s| == 0 then [] else EncodeChar(s[0]) + Encode(s[1..])
  }

  /** Code points of two-, three- and four-byte sequences (section 3 of RFC 3629). */
  function Value2(b0: int, b1: int): int { (b0 - 0xC0) * 64 + (b1 - 0x80) }

  function Value3(b0: int, b1: int, b2: int): int { (b0 - 0xE0) * 4096 + (b1 - 0x80) * 64 + (b2 - 0x80) }

  function Value4(b0: int, b1: int, b2: int, b3: int): int {
    (b0 - 0xF0) * 262144 + (b1 - 0x80) * 4096 + (b2 - 0x80) * 64 + (b3 - 0x80)
  }

  /** Allowed range of the second byte after a three-byte lead (no overlongs, no surrogates). */
  function Low3(b0: byte): byte { if b0 == 0xE0 then 0xA0 else 0x80 }
  function High3(b0: byte): byte { if b0 == 0xED then 0x9F else 0xBF }

  /** Allowed range of the second byte after a four-byte lead (no overlongs, nothing above U+10FFFF). */
  function Low4(b0: byte): byte { if b0 == 0xF0 then 0x90 else 0x80 }
  function High4(b0: byte): byte { if b0 == 0xF4 then 0x8F else 0xBF }

  /**
   * The character at the start of `b` and the number of bytes it takes, when `b`
   * starts with a UTF8-char of section 4 of RFC 3629.
   */
  function DecodeChar(b: seq<byte>): (r: Option<(char, nat)>)
    ensures r.Some? ==> 1 <= r.value.1 <= |b|
  {
    if |b| == 0 then None
    else if b[0] < 0x80 then Some((b[0] as char, 1))
    else if 0xC2 <= b[0] <= 0xDF then
      if |b| >= 2 && IsTail(b[1]) then Some((Value2(b[0], b[1]) as char, 2)) else None
    else if 0xE0 <= b[0] <= 0xEF then
      if |b| >= 3 && Low3(b[0]) <= b[1] <= High3(b[0]) && IsTail(b[2]) then
        Some((Value3(b[0], b[1], b[2]) as char, 3))
      else None
    else if 0xF0 <= b[0] <= 0xF4 then
      if |b| >= 4 && Low4(b[0]) <= b[1] <= High4(b[0]) && IsTail(b[2]) && IsTail(b[3]) then
        Some((Value4(b[0], b[1], b[2], b[3]) as char, 4))
      else None
    else None
  }

  /** Decodes a whole line; None is Python's UnicodeDecodeError. */
  function Decode(b: seq<byte>): (r: Option<seq<char>>)
    ensures r.Some? ==> |r.value| <= |b| && (|r.value| == 0 <==> |b| == 0)
    decreases |b|
  {
    if |b| == 0 then Some([])
    else
      match DecodeChar(b)
      case None => None
      case Some((c, k)) =>
        match Decode(b[k..])
        case None => None
        case Some(cs) => Some([c] + cs)
  }

  lemma DivMod64(n: int, q: int, r: int)
    requires 0 <= r < 64 && n == q * 64 + r
    ensures n / 64 == q && n % 64 == r
  {
  }

  lemma DivMod4096(n: int, q: int, r: int)
    requires 0 <= r < 4096 && n == q * 4096 + r
    ensures n / 4096 == q && n % 4096 == r
  {
  }

  lemma DivMod262144(n: int, q: int, r: int)
    requires 0 <= r < 262144 && n == q * 262144 + r
    ensures n / 262144 == q && n % 262144 == r
  {
  }

  /** The digits of a code point in base 64, as EncodeChar computes them. */
  lemma Digits(n: nat)
    ensures n / 4096 == (n / 64) / 64
    ensures (n / 4096) % 64 == (n / 64 / 64) % 64
    ensures n / 262144 == (n / 4096) / 64
  {
    var q1, r0 := n / 64, n % 64;
    var q2, r1 := q1 / 64, q1 % 64;
    DivMod4096(n, q2, r1 * 64 + r0);
    var q3, r2 := q2 / 64, q2 % 64;
    DivMod262144(n, q3, r2 * 4096 + r1 * 64 + r0);
  }

  /** Each character decodes back from its own bytes, whatever follows them. */
  lemma DecodeEncodeChar(c: char, rest: seq<byte>)
    ensures DecodeChar(EncodeChar(c) + rest) == Some((c, |EncodeChar(c)|))
  {
    var n := c as int;
    if n < 0x80 {
    } else if n < 0x800 {
      DecodeEncodeTwo(c, rest);
    } else if n < 0x10000 {
      DecodeEncodeThree(c, rest);
    } else {
      DecodeEncodeFour(c, rest);
    }
  }

  lemma DecodeEncodeTwo(c: char, rest: seq<byte>)
    requires 0x80 <= c as int < 0x800
    ensures DecodeChar(EncodeChar(c) + rest) == Some((c, 2))
  {
    var n := c as int;
    var b := EncodeChar(c) + rest;
    assert b[0] == 0xC0 + n / 64 && b[1] == 0x80 + n % 64;
    assert Value2(b[0], b[1]) == n;
  }

  lemma DecodeEncodeThree(c: char, rest: seq<byte>)
    requires 0x800 <= c as int < 0x10000
    ensures DecodeChar(EncodeChar(c) + rest) == Some((c, 3))
  {
    var n := c as int;
    Digits(n);
    var b := EncodeChar(c) + rest;
    var q1, r0 := n / 64, n % 64;
    var q2, r1 := q1 / 64, q1 % 64;
    assert b[0] == 0xE0 + q2 && b[1] == 0x80 + r1 && b[2] == 0x80 + r0;
    assert Value3(b[0], b[1], b[2]) == n;
  }

  lemma DecodeEncodeFour(c: char, rest: seq<byte>)
    requires 0x10000 <= c as int
    ensures DecodeChar(EncodeChar(c) + rest) == Some((c, 4))
  {
    var n := c as int;
    Digits(n);
    var b := EncodeChar(c) + rest;
    var q1, r0 := n / 64, n % 64;
    var q2, r1 := q1 / 64, q1 % 64;
    var q3, r2 := q2 / 64, q2 % 64;
    assert b[0] == 0xF0 + q3 && b[1] == 0x80 + r2 && b[2] == 0x80 + r1 && b[3] == 0x80 + r0;
    assert Value4(b[0], b[1], b[2], b[3]) == n;
  }

  /** The bytes of each decoded character are exactly that character's encoding. */
  lemma EncodeDecodeChar(b: seq<byte>)
    requires DecodeChar(b).Some?
    ensures EncodeChar(DecodeChar(b).value.0) == b[..DecodeChar(b).value.1]
  {
    if b[0] < 0x80 {
    } else if b[0] <= 0xDF {
      EncodeDecodeTwo(b);
    } else if b[0] <= 0xEF {
      EncodeDecodeThree(b);
    } else {
      EncodeDecodeFour(b);
    }
  }

  lemma EncodeDecodeTwo(b: seq<byte>)
    requires DecodeChar(b).Some? && 0x80 <= b[0] <= 0xDF
    ensures EncodeChar(DecodeChar(b).value.0) == b[..2]
  {
    var b0: int, b1: int := b[0], b[1];
    var n := DecodeChar(b).value.0 as int;
    assert n == Value2(b0, b1);
    DivMod64(n, b0 - 0xC0, b1 - 0x80);
  }

  lemma EncodeDecodeThree(b: seq<byte>)
    requires DecodeChar(b).Some? && 0xE0 <= b[0] <= 0xEF
    ensures EncodeChar(DecodeChar(b).value.0) == b[..3]
  {
    var b0: int, b1: int, b2: int := b[0], b[1], b[2];
    var n := DecodeChar(b).value.0 as int;
    assert n == Value3(b0, b1, b2);
    Digits(n);
    DivMod64(n, (b0 - 0xE0) * 64 + (b1 - 0x80), b2 - 0x80);
    DivMod64(n / 64, b0 - 0xE0, b1 - 0x80);
  }

  lemma EncodeDecodeFour(b: seq<byte>)
    requires DecodeChar(b).Some? && 0xF0 <= b[0]
    ensures EncodeChar(DecodeChar(b).value.0) == b[..4]
  {
    var b0: int, b1: int, b2: int, b3: int := b[0], b[1], b[2], b[3];
    var n := DecodeChar(b).value.0 as int;
    assert n == Value4(b0, b1, b2, b3);
    Digits(n);
    DivMod64(n, (b0 - 0xF0) * 4096 + (b1 - 0x80) * 64 + (b2 - 0x80), b3 - 0x80);
    DivMod64(n / 64, (b0 - 0xF0) * 64 + (b1 - 0x80), b2 - 0x80);
    DivMod64(n / 64 / 64, b0 - 0xF0, b1 - 0x80);
  }

  /** Every string survives encoding and decoding. */
  lemma {:induction false} DecodeEncode(s: seq<char>)
    ensures Decode(Encode(s)) == Some(s)
    decreases |s|
  {
    if |s| > 0 {
      var e := EncodeChar(s[0]);
      DecodeEncodeChar(s[0], Encode(s[1..]));
      assert (e + Encode(s[1..]))[|e|..] == Encode(s[1..]);
      DecodeEncode(s[1..]);
      assert [s[0]] + s[1..] == s;
    }
  }

  /** The first character of an encoded string is decoded from its own bytes, leaving the rest. */
  lemma DecodeFirst(s: seq<char>, rest: seq<byte>)
    requires |s| > 0
    ensures var e := EncodeChar(s[0]);
      && Encode(s) + rest == e + (Encode(s[1..]) + rest)
      && DecodeChar(e + (Encode(s[1..]) + rest)) == Some((s[0], |e|))
      && (e + (Encode(s[1..]) + rest))[|e|..] == Encode(s[1..]) + rest
  {
    EncodeSplit(s, rest);
    DecodeEncodeChar(s[0], Encode(s[1..]) + rest);
    DropPrefix(EncodeChar(s[0]), Encode(s[1..]) + rest);
  }

  lemma EncodeSplit(s: seq<char>, rest: seq<byte>)
    requires |s| > 0
    ensures Encode(s) + rest == EncodeChar(s[0]) + (Encode(s[1..]) + rest)
  {
  }

  lemma DropPrefix(e: seq<byte>, m: seq<byte>)
    ensures (e + m)[|e|..] == m
  {
  }

  /** Decoding after the encoding of `s` goes on with what follows. */
  lemma {:induction false} DecodeAfterEncoded(s: seq<char>, rest: seq<byte>)
    requires Decode(rest).Some?
    ensures Decode(Encode(s) + rest) == Some(s + Decode(rest).value)
    decreases |s|
  {
    var v := Decode(rest).value;
    if |s| == 0 {
      assert Encode(s) + rest == rest;
      assert s + v == v;
    } else {
      var e, more := EncodeChar(s[0]), Encode(s[1..]) + rest;
      DecodeFirst(s, rest);
      DecodeAfterEncoded(s[1..], rest);
      DecodeCons(e + more, s[0], |e|);
      ConsChars(s, v);
    }
  }

  /** Decoding a character and then the rest is decoding the whole. */
  lemma DecodeCons(b: seq<byte>, c: char, k: nat)
    requires DecodeChar(b) == Some((c, k)) && Decode(b[k..]).Some?
    ensures Decode(b) == Some([c] + Decode(b[k..]).value)
  {
  }

  lemma ConsChars(s: seq<char>, v: seq<char>)
    requires |s| > 0
    ensures [s[0]] + (s[1..] + v) == s + v
  {
    assert [s[0]] + s[1..] == s;
  }

  /** ... and fails when what follows fails: an error anywhere makes the whole line fail. */
  lemma {:induction false} DecodeFailsAfterEncoded(s: seq<char>, rest: seq<byte>)
    requires Decode(rest).None?
    ensures Decode(Encode(s) + rest).None?
    decreases |s|
  {
    if |s| == 0 {
      assert Encode(s) + rest == rest;
    } else {
      DecodeFirst(s, rest);
      DecodeFailsAfterEncoded(s[1..], rest);
    }
  }

  /** A byte string that decodes is exactly the encoding of what it decodes to. */
  lemma {:induction false} EncodeDecode(b: seq<byte>)
    requires Decode(b).Some?
    ensures Encode(Decode(b).value) == b
    decreases |b|
  {
    if |b| > 0 {
      DecodeStep(b);
      EncodeDecode(b[DecodeChar(b).value.1..]);
      EncodeDecodeStep(b);
    }
  }

  /** If the rest re-encodes to itself, so does the whole. */
  lemma EncodeDecodeStep(b: seq<byte>)
    requires |b| > 0 && Decode(b).Some?
    requires DecodeChar(b).Some? && Decode(b[DecodeChar(b).value.1..]).Some?
    requires Encode(Decode(b[DecodeChar(b).value.1..]).value) == b[DecodeChar(b).value.1..]
    ensures Encode(Decode(b).value) == b
  {
    DecodeStep(b);
    var (c, k) := DecodeChar(b).value;
    EncodeDecodeChar(b);
    EncodeJoin(b, k, c, Decode(b[k..]).value, Decode(b).value);
  }

  /** The encoding of one character followed by the rest, put back together. */
  lemma EncodeJoin(b: seq<byte>, k: nat, c: char, tail: seq<char>, s: seq<char>)
    requires k <= |b| && s == [c] + tail
    requires EncodeChar(c) == b[..k] && Encode(tail) == b[k..]
    ensures Encode(s) == b
  {
    EncodeCons(c, tail);
    assert b[..k] + b[k..] == b;
  }

  /** A nonempty decodable string is its first character followed by the decoding of the rest. */
  lemma DecodeStep(b: seq<byte>)
    requires |b| > 0 && Decode(b).Some?
    ensures DecodeChar(b).Some?
    ensures Decode(b[DecodeChar(b).value.1..]).Some?
    ensures Decode(b).value == [DecodeChar(b).value.0] + Decode(b[DecodeChar(b).value.1..]).value
  {
  }

  lemma EncodeCons(c: char, s: seq<char>)
    ensures Encode([c] + s) == EncodeChar(c) + Encode(s)
  {
    assert ([c] + s)[1..] == s;
  }
}

=== FILE: watcher.dfy ===
/**
 * The port watcher `check_ports` (CIAP/main.py:128-150). Each pass of its loop
 * compares the number of enumerated ports with the previous pass and connects,
 * stops logging, or does nothing. Any exception ends the loop for good.
 *
 * The environment of one pass is a parameter: the enumeration result (None when
 * `comports()` raises) and whether `serial.Serial(...)` manages to open the port.
 * The 2 s sleep between passes is not represented.
 */
module Watcher {
  import opened Wrappers
  import Clock
  import opened Sessions

  /** `previous_ports`, and whether the watcher loop is still running. */
  datatype Watch = Watch(previous: seq<string>, alive: bool)

  /** What the environment offers one pass of the loop. */
  datatype Poll = Poll(scan: Option<seq<string>>, opens: bool, now: Clock.DateTime)

  function Begin(): Watch { Watch([], true) }

  /**
   * One pass, as written. When the count neither grows nor shrinks and no port
   * was ever opened, `self.serial_port.is_open` is evaluated on None; the
   * AttributeError ends the loop.
   */
  function Tick(w: Watch, s: Session, p: Poll): (r: (Watch, Session))
    requires Clock.Valid(p.now)
    ensures !w.alive ==> r == (w, s)
    ensures r.0.alive ==> p.scan.Some? && r.0.previous == p.scan.value
    ensures !r.0.alive ==> r == (w.(alive := false), s)
    ensures w.alive && p.scan.Some? && |p.scan.value| > |w.previous| && p.opens ==>
      && r.0.alive
      && r.1.port == Port(p.scan.value[|p.scan.value| - 1], true)
      && r.1.title == TitleConnected && r.1.loggingActive && r.1.logFile.Some?
      && r.1 == StartLogging(s.(port := Port(p.scan.value[|p.scan.value| - 1], true), title := TitleConnected), p.now)
    ensures w.alive && p.scan.Some? && |p.scan.value| > |w.previous| && !p.opens ==> !r.0.alive
    ensures w.alive && p.scan.Some? && |p.scan.value| < |w.previous| ==>
      && r.0.alive && r.1.title == TitleDisconnected && !r.1.loggingActive
      && (s.loggingActive ==> !PortOpen(r.1.port))
      && r.1 == StopLogging(s.(title := TitleDisconnected))
    ensures w.alive && p.scan.Some? && |p.scan.value| == |w.previous| ==>
      (r.0.alive <==> s.port.Port?)
    ensures w.alive && p.scan.Some? && |p.scan.value| == |w.previous| && s.port.Port? && !s.port.isOpen ==>
      r.0.alive && r.1 == StopLogging(s.(title := TitleDisconnected))
    ensures w.alive && p.scan.Some? && |p.scan.value| == |w.previous| && PortOpen(s.port) ==>
      r == (Watch(p.scan.value, true), s)
  {
    if !w.alive then (w, s)
    else
      match p.scan
      case None => (w.(alive := false), s)
      case Some(current) =>
        if |current| > |w.previous| then
          if !p.opens then (w.(alive := false), s)
          else
            var connected := s.(port := Port(current[|current| - 1], true), title := TitleConnected);
            (Watch(current, true), StartLogging(connected, p.now))
        else if |current| < |w.previous| then
          (Watch(current, true), StopLogging(s.(title := TitleDisconnected)))
        else if s.port.NoPort? then
          (w.(alive := false), s)
        else if !s.port.isOpen then
          (Watch(current, true), StopLogging(s.(title := TitleDisconnected)))
        else (Watch(current, true), s)
  }

  /**
   * One pass as evidently intended: the closed-port check is skipped when no
   * port has been opened yet, so an unchanged count is simply no change.
   */
  function FixedTick(w: Watch, s: Session, p: Poll): (r: (Watch, Session))
    requires Clock.Valid(p.now)
    ensures p.scan.Some? && (|p.scan.value| > |w.previous| ==> p.opens) ==> r.0.alive == w.alive
  {
    if !w.alive then (w, s)
    else
      match p.scan
      case None => (w.(alive := false), s)
      case Some(current) =>
        if |current| > |w.previous| then
          if !p.opens then (w.(alive := false), s)
          else
            var connected := s.(port := Port(current[|current| - 1], true), title := TitleConnected);
            (Watch(current, true), StartLogging(connected, p.now))
        else if |current| < |w.previous| || (s.port.Port? && !s.port.isOpen) then
          (Watch(current, true), StopLogging(s.(title := TitleDisconnected)))
        else (Watch(current, true), s)
  }

  /**
   * A port that appears while logging is active replaces the old handle without
   * closing it; the log file stays the same and no reader is started, whether
   * or not one is still running.
   */
  lemma ReconnectWhileLogging(w: Watch, s: Session, p: Poll)
    requires Clock.Valid(p.now) && Inv(s) && s.loggingActive
    requires w.alive && p.scan.Some? && |p.scan.value| > |w.previous| && p.opens
    ensures Tick(w, s, p).1.logFile == s.logFile
    ensures Tick(w, s, p).1.readerRunning == s.readerRunning
    ensures Tick(w, s, p).1.files == s.files
  {
  }

  /** The fix changes nothing except in the one case where `Tick` raises. */
  lemma FixedTickAgrees(w: Watch, s: Session, p: Poll)
    requires Clock.Valid(p.now)
    ensures Tick(w, s, p).0.alive || !w.alive || p.scan.None? ==> FixedTick(w, s, p) == Tick(w, s, p)
    ensures w.alive && p.scan.Some? && |p.scan.value| == |w.previous| && s.port.NoPort? ==>
      && !Tick(w, s, p).0.alive
      && FixedTick(w, s, p) == (Watch(p.scan.value, true), s)
  {
  }

  predicate ValidPolls(ps: seq<Poll>) {
    forall i | 0 <= i < |ps| :: Clock.Valid(ps[i].now)
  }

  /** The watcher loop over successive passes. */
  function Run(w: Watch, s: Session, ps: seq<Poll>): (r: (Watch, Session))
    requires ValidPolls(ps)
    ensures Inv(s) ==> Inv(r.1)
    ensures r.0.alive ==> w.alive
    decreases |ps|
  {
    if |ps| == 0 then (w, s)
    else
      var (w', s') := Tick(w, s, ps[0]);
      Run(w', s', ps[1..])
  }

  /** The watcher loop with the fix applied. */
  function FixedRun(w: Watch, s: Session, ps: seq<Poll>): (Watch, Session)
    requires ValidPolls(ps)
    decreases |ps|
  {
    if |ps| == 0 then (w, s)
    else
      var (w', s') := FixedTick(w, s, ps[0]);
      FixedRun(w', s', ps[1..])
  }

  /** Once the loop has ended, no later pass changes anything. */
  lemma {:induction false} RunAfterHalt(w: Watch, s: Session, ps: seq<Poll>)
    requires ValidPolls(ps) && !w.alive
    ensures Run(w, s, ps) == (w, s)
    decreases |ps|
  {
    if |ps| > 0 {
      assert ValidPolls(ps[1..]) by {
        forall i | 0 <= i < |ps| - 1 ensures ps[1..][i] == ps[i + 1] { }
      }
      RunAfterHalt(w, s, ps[1..]);
    }
  }

  /**
   * With no serial port present at start-up the first pass raises and the
   * program never connects, whatever is plugged in later.
   */
  lemma NoPortAtStartupNeverConnects(first: Poll, later: seq<Poll>)
    requires Clock.Valid(first.now) && ValidPolls(later)
    requires first.scan == Some([])
    ensures ValidPolls([first] + later)
    ensures Run(Begin(), Initial(), [first] + later) == (Watch([], false), Initial())
  {
    var ps := [first] + later;
    assert ps[0] == first && ps[1..] == later;
    RunAfterHalt(Watch([], false), Initial(), later);
  }

  /** With the fix, a port plugged in after an empty start-up is connected and logged. */
  lemma FixedConnectsLatePort(device: string, t1: Clock.DateTime, t2: Clock.DateTime)
    requires Clock.Valid(t1) && Clock.Valid(t2)
    ensures var (w, s) := FixedRun(Begin(), Initial(), [Poll(Some([]), true, t1), Poll(Some([device]), true, t2)]);
      && w.alive && s.port == Port(device, true) && s.loggingActive && s.readerRunning
      && s.logFile == Some(LogHandle(Clock.LogFileName(t2), true))
  {
    var ps := [Poll(Some([]), true, t1), Poll(Some([device]), true, t2)];
    var first := FixedTick(Begin(), Initial(), ps[0]);
    assert first == (Begin(), Initial());
    assert ps[1..] == [ps[1]] && ps[1..][1..] == [];
    assert FixedRun(Begin(), Initial(), ps) == FixedRun(Begin(), Initial(), ps[1..]);
    var second := FixedTick(Begin(), Initial(), ps[1]);
    assert FixedRun(Begin(), Initial(), ps[1..]) == FixedRun(second.0, second.1, []);
  }

  /** Every pass keeps the session invariant. */
  lemma TickPreservesInv(w: Watch, s: Session, p: Poll)
    requires Clock.Valid(p.now) && Inv(s)
    ensures Inv(Tick(w, s, p).1)
  {
  }

  lemma FixedTickPreservesInv(w: Watch, s: Session, p: Poll)
    requires Clock.Valid(p.now) && Inv(s)
    ensures Inv(FixedTick(w, s, p).1)
  {
  }
}

=== FILE: whitespace.dfy ===
/**
 * Python's `str.rstrip()` with no argument (CIAP/main.py:190): removes the longest
 * run of whitespace at the end of a string. Whitespace is what `str.isspace`
 * accepts: the characters whose bidirectional class is WS, B or S, or whose
 * general category is Zs.
 */
module Whitespace {

  predicate IsSpace(c: char) {
    || ('\t' <= c <= '\r')                  // TAB, LF, VT, FF, CR
    || ('\U{1C}' <= c <= '\U{1F}')          // information separators FS, GS, RS, US
    || c == ' '
    || c == '\U{85}'                        // NEL
    || c == '\U{A0}'                        // NO-BREAK SPACE
    || c == '\U{1680}'
    || ('\U{2000}' <= c <= '\U{200A}')
    || c == '\U{2028}' || c == '\U{2029}'
    || c == '\U{202F}' || c == '\U{205F}' || c == '\U{3000}'
  }

  predicate AllSpace(t: seq<char>) { forall i | 0 <= i < |t| :: IsSpace(t[i]) }

  /**
   * `r` is the right-stripped form of `s`: a prefix of `s` that does not end in
   * whitespace and is followed in `s` by whitespace only.
   */
  predicate IsRightStripped(s: seq<char>, r: seq<char>) {
    && r <= s
    && (|r| == 0 || !IsSpace(r[|r| - 1]))
    && AllSpace(s[|r|..])
  }

  function RStrip(s: seq<char>): (r: seq<char>)
    ensures IsRightStripped(s, r)
    decreases |s|
  {
    if |s| == 0 || !IsSpace(s[|s| - 1]) then s
    else
      var r := RStrip(s[..|s| - 1]);
      assert s[|r|..] == s[..|s| - 1][|r|..] + [s[|s| - 1]];
      r
  }

  /** There is only one right-stripped form, so any that is found is RStrip's. */
  lemma RightStrippedUnique(s: seq<char>, r: seq<char>)
    requires IsRightStripped(s, r)
    ensures r == RStrip(s)
  {
    var r' := RStrip(s);
    assert |r| == |r'|;
  }

  /** Text that does not end in whitespace, followed by whitespace, strips back to the text. */
  lemma RStripTrailing(t: seq<char>, ws: seq<char>)
    requires |t| == 0 || !IsSpace(t[|t| - 1])
    requires AllSpace(ws)
    ensures RStrip(t + ws) == t
  {
    var s := t + ws;
    assert s[|t|..] == ws;
    assert t <= s;
    RightStrippedUnique(s, t);
  }
}

=== FILE: wrappers.dfy ===
/** Optional values, used wherever the program either produces a value or fails. */
module Wrappers {

  datatype Option<+T> = None | Some(value: T)
}
